=== FILE: README.md ===
# Service gateway: a Dafny model

This project models an HTTP gateway that sits in front of a pool of worker services, together with the example worker (a currency converter) and its `Process` record.

The gateway does five things:
- Workers **register** themselves under a function name.
- Client POSTs are **dispatched** to a worker registered for the requested function. The worker is picked by its load counter ("mailbox size").
- The id in the worker's reply is recorded in a correlation table, so that later **PUT** and **GET** requests for that process reach the same worker.
- A GET **finalises** the process: it decrements the worker's counter, drops the correlation, and may store the reply in a two-tier result cache. The Redis tier is shared; the local tier is an in-process map.
- A worker can **broadcast** a message to every worker of a function, or of all functions, and gets all the replies joined into one.

Everything the gateway stores lives in one Redis keyspace, modelled as one map (`Redis.Store`). That keyspace holds:
- the per-function address lists;
- the `<address>_mailboxSize` counters;
- the `<id>` correlations;
- the `cached:<id>` entries.

Because there is one map, key collisions can be shown, for example between the literal key `"0"` and the correlation of process 0.

Each request is one atomic step, a pure function from the gateway's state to `Step(next, response, calls)`. Outbound HTTP calls are not performed. The model takes their outcomes as a parameter `net: nat -> Answer`: the k-th call a request makes is answered by `net(k)`.

The possible answers are:
- `Refused`: a connection failure;
- `Failed`: any other exception;
- `Empty`: a null body;
- `Reply(text, id)`: a body, where `id` is the `id` field Jackson reads from it, or `None` when that read throws.

A Java exception ends the handler without an answer. This is the response `Aborted`, and the state it leaves is the state after the last statement that completed. Java `int` and `long` arithmetic wraps around explicitly (`Wrap32`, `Wrap64`). `Integer.parseInt`, `Long.parseLong`, `String.valueOf` and `String.split` are modelled on ASCII text.

Modules:
- `Redis`: the keyspace and the commands used (`GET`, `SET`, `DEL`, `LPUSH`, `LLEN`, `LRANGE`, `LREM`).
- `Decimal`: Java integer text conversion and wrap-around.
- `JavaText`: `split`, `startsWith` and `contains`.
- `Addressing`: the id in a GET URI and the port in an address.
- `GatewayState`: the gateway's state, its invariant and the key names.
- `Balancer`: worker selection.
- `Registry`: registration.
- `Dispatcher`: dispatch.
- `ResultCache`: the two cache tiers.
- `Correlation`: PUT and GET.
- `Broadcaster`: broadcast.
- `GatewayHandler`: the request entry point.
- `Conversations`: properties across several requests.
- `Unit`: `Process`.
- `ConvertHandler`: the example worker.

In several places the code does not do what its names and comments suggest; the model follows the code:
- **Worker selection.** The loop keeps comparing against the FIRST worker's counter, so it picks the last worker whose counter is below the first one's. It does not pick the least-loaded worker: for counters `[3,1,2]` it picks the worker with 2 (`Balancer.ChooseMissesLeastLoaded`).
- **Deregistration after a refused connection.** It deletes the counter of the address named in the REQUEST body, not that of the worker that refused. It also deletes the literal key `"0"`, which is the correlation of process 0 (`Conversations.RefusedDispatchForgetsProcessZero`). A request without an `address` field aborts after the worker was removed from the list.
- **Broadcast failures.** A broadcast is not best-effort. A call that throws, or an address whose port cannot be read, aborts the whole request (`Broadcaster.BroadcastAborts`). The replies collected so far stay in the aggregate and are emitted ahead of the next completed broadcast (`Broadcaster.LeftoversLeak`).
- **Repeated GET.** A repeated GET after a reply with a result is served from the cache, not answered "unknown" (`Conversations.RepeatedGet`).
- **Example worker with the gateway.** The example worker's GET reply `{"response":12}` has no `id` field. When the gateway finalises with it, the gateway decrements the counter and then aborts, keeping the correlation (`Conversations.ExampleWorkerReplyAborts`).
- **Missing JSON fields.** Jackson's `asText` never returns null, so the null checks after it cannot fire. A missing field throws, which is `Aborted` here.

## Model

| member | source | states |
|---|---|---|
| Addressing.RequestedId | src/main/java/Http/HttpGatewayContextHandler.java:322-324 | An id read from a GET URI is a `long` and comes only from a URI with a query (`?`); the exact reading is stated by the two lemmas below |
| Addressing.RequestedIdNeedsQuery | src/main/java/Http/HttpGatewayContextHandler.java:322-324 | An id is read only when some `=` follows the first `?`; a URI without a query, or without `=` after it, throws |
| Addressing.RequestedIdOfQuery | src/main/java/Http/HttpGatewayContextHandler.java:322-324 | A URI `<path>?<name>=<n>` yields exactly `n`, whatever the path and name |
| Addressing.RequestedIdOfForwardedGet | src/main/java/Http/HttpGatewayContextHandler.java:348 | The URI the gateway builds for the worker GET (`route + "?id=" + id`) is read back by the same parse as the same id |
| Addressing.PortOfAddress | src/main/java/Http/HttpGatewayContextHandler.java:438-441 | The text between the second `:` and the next `/` of `<scheme>:<host>:<port>[/...]` is read back as `port` |
| Addressing.PortOfHttpAddress | src/main/java/Http/HttpGatewayContextHandler.java:441 | An address `http://<host>:<port>` yields its port, so the self-exclusion test compares the right number |
| Decimal.ParseIntToString | src/main/java/Http/HttpGatewayContextHandler.java:356-357 | Any `int` written with `String.valueOf` is read back by `parseInt` as the same value |
| Decimal.ToStringInjective | src/main/java/Http/HttpGatewayContextHandler.java:340 | Distinct ids have distinct decimal keys |
| GatewayState.CounterRoundTrip | src/main/java/Http/HttpGatewayContextHandler.java:258 | A counter just written is read back, through the `_mailboxSize` key, as the number written |
| GatewayState.KeysDiffer | src/main/java/Http/HttpGatewayContextHandler.java:327-357 | The counter key of an address never equals the correlation key of a numeric id (the key a GET looks up) or that id's cache key, and a cache key never equals its correlation key. The correlation key a dispatch writes is the reply's `id` text, which can equal a counter key; `Dispatcher.Record` states the counter only when it does not |
| GatewayState.Initial | src/main/java/Http/HttpGatewayContextHandler.java:29-41 | A new gateway has no known names, an empty aggregate, an empty local tier and a promotion counter of 0, and satisfies the invariant |
| Balancer.ChooseSpec | src/main/java/Http/HttpGatewayContextHandler.java:219-237 | The loop selects the first worker unless a later counter is strictly below the first one's, in which case the last such worker; no other index fits that description |
| Balancer.ChoiceBeatsFirst | src/main/java/Http/HttpGatewayContextHandler.java:234-236 | The selected worker's counter is at most the first worker's, and strictly below it when any worker's is |
| Balancer.ChooseFirstWhenLeast | src/main/java/Http/HttpGatewayContextHandler.java:228-236 | When the first worker is least loaded it is selected |
| Balancer.ChooseMissesLeastLoaded | src/main/java/Http/HttpGatewayContextHandler.java:234 | For counters `[3,1,2]` the loop selects index 2, while index 1 is the least-loaded one |
| Registry.Register | src/main/java/Http/HttpGatewayContextHandler.java:137-166 | A known counter key leaves the keyspace as it is; otherwise the address is pushed at the list head and its counter reads 0, nothing else changes; the name joins the known names only when absent, so they stay duplicate-free; a missing field aborts; with both fields present the request aborts exactly when the address is new and a string is stored under the function name (WRONGTYPE), and then nothing changes |
| Registry.RegisterIdempotent | src/main/java/Http/HttpGatewayContextHandler.java:151-159 | Registering the same worker twice has the effect of registering it once |
| Registry.RegisterAddsOneOccurrence | src/main/java/Http/HttpGatewayContextHandler.java:151-153 | A new worker's address gains exactly one occurrence in its function's list |
| Redis.LRem1 | src/main/java/Http/HttpGatewayContextHandler.java:245 | `LREM f 1 addr` removes exactly one occurrence of the address (the first), keeps the order of the rest, and touches no other key; the key stays a list, and is deleted exactly when the list is left empty |
| Dispatcher.Dispatch | src/main/java/Http/HttpGatewayContextHandler.java:199-272 | An empty list answers "not found service" with no call and no change; otherwise exactly one POST of the payload goes to the listed worker the selection loop picks; an unreadable counter aborts before any call |
| Dispatcher.Forward | src/main/java/Http/HttpGatewayContextHandler.java:239-272 | On success the chosen worker's counter becomes the first worker's counter plus one, the reply's id maps to the chosen worker and the reply is relayed unchanged, only those two keys change; on a refused connection one occurrence of the worker leaves the list, the request address's counter and key "0" are deleted, nothing else changes, the function's key is left a list or absent, and the answer is the "no response" error (abort without an address); a null reply changes nothing |
| Dispatcher.Deregister | src/main/java/Http/HttpGatewayContextHandler.java:244-246 | A refused connection removes one occurrence of the chosen worker from the function's list and deletes the request address's counter and key "0"; no other key changes; the function's key is left a list or absent (never a string); a request without `address` aborts after the removal |
| Dispatcher.Record | src/main/java/Http/HttpGatewayContextHandler.java:257-272 | A reply sets the chosen worker's counter to the first worker's counter plus one (as an `int`) and correlates the reply's id with the worker, relaying the reply; a reply without an id aborts after the counter write; only those keys change |
| ResultCache.RedisShadowsLocal | src/main/java/Http/HttpGatewayContextHandler.java:327-337 | The Redis tier wins: an entry that went to the local tier (lines 375-382) is stored there but stays hidden behind whatever Redis already holds under its key |
| ResultCache.Insert | src/main/java/Http/HttpGatewayContextHandler.java:375-382 | An entry goes to the local tier iff it holds fewer entries than the promotion counter, else to Redis with the `int` counter incremented (wrapping at the top); the local size stays within the counter while the counter is below the top of `int` |
| ResultCache.InsertThenFind | src/main/java/Http/HttpGatewayContextHandler.java:374-383 | An entry just stored is found by the next lookup, unless Redis already held a string under its key while the entry went to the local tier |
| ResultCache.FirstEntryGoesToRedis | src/main/java/Http/HttpGatewayContextHandler.java:29 | With the counter at its initial 0, the first entry goes to Redis and the counter becomes 1 |
| ResultCache.CachedForm | src/main/java/Http/HttpGatewayContextHandler.java:376 | The cached form is `{"cached":true,` followed by the reply without its first character |
| Correlation.HandlePut | src/main/java/Http/HttpGatewayContextHandler.java:283-313 | A PUT never changes gateway state; an unknown id is an error with no call; a known id is relayed to exactly the recorded worker and its reply returned |
| Correlation.Complete | src/main/java/Http/HttpGatewayContextHandler.java:370-384 | The reply's id stops being correlated, the reply is relayed, and it is cached iff it contains "response" |
| Correlation.FinalizeSpec | src/main/java/Http/HttpGatewayContextHandler.java:347-384 | After a worker reply the route's counter drops by exactly one (no floor, `int` wrap), the reply's id is deleted, the reply goes to exactly one cache tier when it contains "response", and only those keys change; a null reply changes nothing; a reply without an id aborts after the decrement |
| Correlation.HandleGet | src/main/java/Http/HttpGatewayContextHandler.java:320-385 | A cache hit answers the stored text with no call and no change; an unknown id is an error; a known id makes one GET to `route?id=<id>` and finalises |
| GatewayHandler.RegistrationExtendsNames | src/main/java/Http/HttpGatewayContextHandler.java:151-159 | A broadcast to `all` reaches every registered function: a registration puts its name among the names, keeps the earlier names as a prefix (first-registration order), and never repeats one; an aborted registration leaves them as they were |
| GatewayHandler.RegisterAfterDeregister | src/main/java/Http/HttpGatewayContextHandler.java:150-153 | After a refused connection removes a worker (line 245), a new worker of the same function registers without a WRONGTYPE abort, even when the list was emptied and deleted |
| GatewayHandler.OnlyRegistrationAddsNames | src/main/java/Http/HttpGatewayContextHandler.java:173-177 | No request other than a registration changes the names a broadcast to `all` iterates over |
| Broadcaster.Broadcast | src/main/java/Http/HttpGatewayContextHandler.java:168-195 | Only the aggregate changes; every call posts the payload to an address not on the requester's port; a completed broadcast empties the aggregate, an aborted one keeps the old aggregate as a prefix |
| Broadcaster.BroadcastReply | src/main/java/Http/HttpGatewayContextHandler.java:185-194 | The answer is `broadcast response: ` then each earlier leftover and each call's reply, in call order, each followed by `~~~` |
| Broadcaster.BroadcastCompletes | src/main/java/Http/HttpGatewayContextHandler.java:427-446 | With readable lists and ports and every call to a recipient answered (only those calls are constrained), every listed address whose port differs from the requester's is called exactly once, in list order and name order, and the aggregate ends empty |
| Broadcaster.BroadcastSentIff | src/main/java/Http/HttpGatewayContextHandler.java:168-195 | A broadcast completes exactly when every list is readable, every port parseable and every call to a recipient answered; otherwise it aborts |
| Broadcaster.TargetsSpec | src/main/java/Http/HttpGatewayContextHandler.java:437-441 | The reference recipients of one function are exactly the addresses of its list whose port is not the requester's |
| Broadcaster.BroadcastAborts | src/main/java/Http/HttpGatewayContextHandler.java:427-446 | A list held as a string, an unreadable port, or a recipient whose call throws aborts the broadcast; the aggregate then gains one reply per answered call, every call but a throwing last one being answered |
| Broadcaster.BroadcastLeftovers | src/main/java/Http/HttpGatewayContextHandler.java:437-445 | After an abort the aggregate holds, behind the earlier leftovers, the replies of the calls that completed, in call order |
| Broadcaster.LeftoversLeak | src/main/java/Http/HttpGatewayContextHandler.java:186-193 | Leftovers of an aborted broadcast open the answer of the next completed one |
| GatewayHandler.HandlePost | src/main/java/Http/HttpGatewayContextHandler.java:127-197 | A malformed body aborts; without a `Service-Call` header the POST is a dispatch; with one, a missing or non-numeric `ServicePort` aborts, then `true` registers, a `broadcast:` prefix broadcasts the rest of the header from that port, and any other value is a dispatch; only `true` registers and only a `broadcast:` header touches the aggregate; no POST touches the cache tiers |
| GatewayHandler.Handle | src/main/java/Http/HttpGatewayContextHandler.java:48-76 | GET, POST and PUT go to their handlers (a PUT whose body is not JSON aborts); only a POST changes the known names or the aggregate, only a GET the cache tiers, a PUT changes nothing, and any other verb is ignored |
| GatewayHandler.HandleKeepsValid | src/main/java/Http/HttpGatewayContextHandler.java:48-76 | Every request keeps known names duplicate-free and the local tier no larger than the promotion counter |
| Conversations.RepeatedGet | src/main/java/Http/HttpGatewayContextHandler.java:327-383 | After a GET is finalised with a reply carrying its id, a repeated GET is served the cached form without any call when the reply contained "response", and is "no service has process" otherwise |
| Conversations.RefusedDispatchForgetsProcessZero | src/main/java/Http/HttpGatewayContextHandler.java:242-247 | A refused dispatch for a request with an address makes a GET for process 0, which reached its worker before, answer "no service has process" |
| Conversations.ExampleWorkerReplyAborts | src/main/java/Http/HttpGatewayContextHandler.java:355-368 | Finalising with the example worker's reply `{"response":12}` (no id) aborts after the counter dropped by one, and the correlation stays so the next GET calls the worker again |
| Unit.NewProcess | src/main/java/Http/Unit/Process.java:24-29 | A new process takes the counter as its id, has the given name, status `created` and no arguments; the counter moves up by one, wrapping at the top of `long` |
| Unit.ConstructedIdsIncrease | src/main/java/Http/Unit/Process.java:9-25 | While the counter stays within `long` (`counter + n <= Long.MAX_VALUE` for n constructions), successive constructions get consecutive ids, so ids are distinct and strictly increasing; past that the counter wraps to negative values |
| Unit.SetId | src/main/java/Http/Unit/Process.java:33-39 | `getId` after `setId` returns the id set and no other field changes |
| Unit.SetStatus | src/main/java/Http/Unit/Process.java:41-47 | `getStatus` after `setStatus` returns the status set and no other field changes |
| Unit.SetProcessName | src/main/java/Http/Unit/Process.java:49-55 | `getProcessName` after `setProcessName` returns the name set and no other field changes |
| Unit.SetProcessArguments | src/main/java/Http/Unit/Process.java:57-63 | `getProcessArguments` after `setProcessArguments` returns the map set and no other field changes |
| Unit.SettersUndo | src/main/java/Http/Unit/Process.java:33-63 | Setting a field back to what the getter returned restores the process; the last of two status writes wins |
| Unit.PutArgument | src/main/java/Http/HttpConvertContextHandler.java:102 | A put into the argument map the getter returned adds that one entry to the process and changes no other field |
| ConvertHandler.WorkerPost | src/main/java/Http/HttpConvertContextHandler.java:95-110 | A POST stores a `created` process with the `amount` argument under the counter's id and advances the counter; a missing name changes nothing, a missing amount aborts after the counter moved |
| ConvertHandler.PostIdIsFresh | src/main/java/Http/HttpConvertContextHandler.java:101-103 | The new id is not in use, so the POST adds one entry and leaves every other process untouched |
| ConvertHandler.ApplyField | src/main/java/Http/HttpConvertContextHandler.java:132-140 | At most one field is applied, in the order firstCurrency, secondCurrency, source, finalize; only finalize changes the status, to `processing` |
| ConvertHandler.WorkerPut | src/main/java/Http/HttpConvertContextHandler.java:118-150 | An unknown id changes nothing and sends nothing; a known process becomes `building`, or `processing` iff `finalize` is the only field applied; its answer is `ApplyField` of the `building` process, so at most one argument among firstCurrency, secondCurrency and source is added or replaced and every other argument is kept |
| ConvertHandler.WorkerGet | src/main/java/Http/HttpConvertContextHandler.java:157-196 | An unknown id changes nothing and sends nothing; a process not `processing` is answered "undone" and kept; a `processing` one is answered with the result and removed |
| ConvertHandler.WorkerStepsKeepValid | src/main/java/Http/HttpConvertContextHandler.java:101-103 | Every process stays stored under its own id, below the counter |
| ConvertHandler.OnlyRequestedEntryChanges | src/main/java/Http/HttpConvertContextHandler.java:124-192 | PUT and GET change no process but the requested one |
| ConvertHandler.FinalizeThenCollect | src/main/java/Http/HttpConvertContextHandler.java:138-192 | A finalising PUT, then a GET that collects the result, then a GET that finds nothing |
| ConvertHandler.UnfinalizedStaysUndone | src/main/java/Http/HttpConvertContextHandler.java:129-176 | A PUT that does not apply `finalize` leaves the process unfinished, so the next GET answers "undone" |

## Left out

- HTTP transport: reading the request stream, the Content-Type checks, and writing responses. A request whose body cannot be read is not modelled; the model starts from the body text and its parsed fields.
- JSON parsing and serialisation (Jackson, org.json). Requests are records of optional fields (`Fields`, `PutBody`). A reply's `id` is given with the reply. The serialised process is the `Process` value itself.
- Jackson's lenient `asLong` (a non-numeric `id` reads as 0) and any non-ASCII digits accepted by `parseInt`.
- `HttpUtility`: its methods do not match how the gateway calls them, and `sendServiceBroadcastJsonPost` does not exist. Outbound calls are the `net` parameter, and timeouts are one of its outcomes.
- Concurrency. This covers the thread pool, lost updates to the counters, and the instance field `broadcastRequesterId` shared between requests. The static counters are also shared by every handler instance (the promotion counter and the process id counter). Each request here is one atomic step on one gateway and one worker.
- The remote port that `handle` stores before reading the body. Every path that reads it first overwrites it with `ServicePort`, so it has no effect.
- Logging, the server bootstrap and the Redis connection demos.
- The worker's result computation, which is the constant 12. The status `done` is set on the process that is then removed, so it is never observable; `ConvertHandler.WorkerGet` does not state it.
- `Process.toString`.
- ConvertHandler.WorkerStepsKeepValid: the POST case assumes the id counter is below the top of `long`, because after a wrap-around the counter could reuse a live id.
- GatewayHandler.HandleKeepsValid: it assumes the promotion counter is below the top of `int`, because after a wrap-around the local tier could outgrow it.

=== FILE: addressing.dfy ===
/** The two ways the handlers read numbers out of text: the process id in a
    GET request's URI (both the gateway and the worker use it), and the port
    in a registered worker address (broadcast self-exclusion). */
module Addressing {
  import opened Wrappers
  import opened Decimal
  import opened JavaText

  /** `Long.parseLong(uri.split("\\?")[1].split("=")[1])`: the text after the
      first `=` of the query, up to the next `?` or `=`. A missing part is an
      ArrayIndexOutOfBoundsException and a non-number a NumberFormatException;
      both are `None`. */
  function RequestedId(uri: string): (r: Option<int>)
    ensures r.Some? ==> Int64Min <= r.value <= Int64Max
    ensures r.Some? ==> '?' in uri
  {
    var query :- Element(Split(uri, '?'), 1);
    var value :- Element(Split(query, '='), 1);
    ParseLong(value)
  }

  /** `Integer.parseInt(address.split(":")[2].split("/")[0])`: the text after
      the second `:` up to the next `:` or `/`. */
  function PortOf(address: string): (r: Option<int>)
    ensures r.Some? ==> Int32Min <= r.value <= Int32Max
    ensures r.Some? ==> ':' in address
  {
    var hostPart :- Element(Split(address, ':'), 2);
    var port :- Element(Split(hostPart, '/'), 0);
    ParseInt(port)
  }

  /** An id is only read from a URI in which some `=` follows its first
      `?`; any other URI makes the handler throw. */
  lemma RequestedIdNeedsQuery(uri: string)
    ensures RequestedId(uri).Some? ==> '?' in uri && '=' in uri[IndexOf(uri, '?') + 1..]
  {
    if RequestedId(uri).Some? {
      var query := Split(uri, '?')[1];
      assert '=' in query;
      SecondPieceFollows(uri, '?', '=');
    }
  }

  lemma NumberHasNo(n: int, c: char)
    requires !IsDigit(c) && c != '-'
    ensures c !in ToString(n)
  {
  }

  /** A query `?<name>=<n>` yields `n`, whatever the path before it. */
  lemma RequestedIdOfQuery(path: string, name: string, n: int)
    requires '?' !in path && '?' !in name && '=' !in name
    requires Int64Min <= n <= Int64Max
    ensures RequestedId(path + "?" + name + "=" + ToString(n)) == Some(n)
  {
    var d := ToString(n);
    NumberHasNo(n, '?');
    NumberHasNo(n, '=');
    var q := name + "=" + d;
    var uri := path + "?" + name + "=" + d;
    assert uri == path + ['?'] + q;
    assert '?' !in q;
    PiecesOfJoin(path, '?', q);
    PiecesOfPlain(q, '?');
    assert Pieces(uri, '?') == [path, q];
    SplitKeeps(uri, '?', 1);
    assert q == name + ['='] + d;
    PiecesOfJoin(name, '=', d);
    PiecesOfPlain(d, '=');
    assert Pieces(q, '=') == [name, d];
    SplitKeeps(q, '=', 1);
    ParseLongToString(n);
  }

  /** The URI the gateway builds for a worker GET carries the id it was built with. */
  lemma RequestedIdOfForwardedGet(route: string, n: int)
    requires '?' !in route
    requires Int64Min <= n <= Int64Max
    ensures RequestedId(route + "?id=" + ToString(n)) == Some(n)
  {
    RequestedIdOfQuery(route, "id", n);
    QueryText(route, ToString(n));
  }

  /** Regroups the literal `"?id="` into the pieces `RequestedIdOfQuery`
      names; kept apart so the solver meets the literal on its own. */
  lemma QueryText(route: string, d: string)
    ensures route + "?id=" + d == route + "?" + "id" + "=" + d
  {
  }

  /** An address `<scheme>:<host>:<port>` optionally followed by a `/` path
      yields its port. */
  lemma PortOfAddress(scheme: string, host: string, n: int, tail: string)
    requires ':' !in scheme && ':' !in host
    requires Int32Min <= n <= Int32Max
    requires |tail| == 0 || tail[0] == '/'
    ensures PortOf(scheme + ":" + host + ":" + ToString(n) + tail) == Some(n)
  {
    var d := ToString(n);
    NumberHasNo(n, ':');
    NumberHasNo(n, '/');
    var address := scheme + ":" + host + ":" + d + tail;
    var rest := host + [':'] + (d + tail);
    assert address == scheme + [':'] + rest;
    PiecesOfJoin(scheme, ':', rest);
    PiecesOfJoin(host, ':', d + tail);
    var pieces := Pieces(address, ':');
    assert pieces == [scheme, host] + Pieces(d + tail, ':');
    FirstPieceOfPrefix(d, ':', tail);
    var h := Pieces(d + tail, ':')[0];
    var t0 := Pieces(tail, ':')[0];
    assert h == d + t0;
    assert pieces[2] == h;
    SplitKeeps(address, ':', 2);
    if |t0| == 0 {
      assert h == d;
      assert '/' !in h;
    } else {
      assert t0[0] == '/';
      assert h == d + ['/'] + t0[1..];
      PiecesOfJoin(d, '/', t0[1..]);
      assert '/' in h by { assert h[|d|] == '/'; }
      SplitKeeps(h, '/', 0);
    }
    ParseIntToString(n);
  }

  /** The usual worker address `http://<host>:<port>` yields its port. */
  lemma PortOfHttpAddress(host: string, n: int)
    requires ':' !in host
    requires Int32Min <= n <= Int32Max
    ensures PortOf("http://" + host + ":" + ToString(n)) == Some(n)
  {
    var h := "//" + host;
    assert ':' !in h by {
      forall i | 0 <= i < |h|
        ensures h[i] != ':'
      {
        if i >= 2 {
          assert h[i] == host[i - 2];
        }
      }
    }
    var d := ToString(n);
    assert "http" + ":" + h + ":" + d + "" == "http://" + host + ":" + d by {
      assert "http" + ":" + h == "http://" + host;
    }
    PortOfAddress("http", h, n, "");
  }
}

=== FILE: balancer.dfy ===
/** Worker selection for a dispatch. The loop in the gateway keeps the first
    worker's counter as the value to beat and never lowers it, so it picks the
    LAST worker whose counter is strictly below the first worker's, or the first
    worker if there is none. This is not always the least-loaded worker. */
module Balancer {

  /** One pass of the selection loop from index `i`, with `chosen` selected so far. */
  function Scan(c: seq<int>, i: nat, chosen: nat): (k: nat)
    requires 0 < |c| && i <= |c| && chosen < |c|
    ensures k < |c|
    decreases |c| - i
  {
    if i == |c| then chosen else Scan(c, i + 1, if c[0] > c[i] then i else chosen)
  }

  /** The index of the worker the gateway selects, given the counters read in list order. */
  function Choose(c: seq<int>): (k: nat)
    requires |c| > 0
    ensures k < |c|
  {
    Scan(c, 0, 0)
  }

  /** What the loop selects among the first `n` counters: the first entry,
      unless some later entry is strictly below the first entry's counter,
      in which case the last such entry. */
  predicate ChosenAmong(c: seq<int>, n: nat, k: nat)
    requires 0 < n <= |c|
  {
    && k < n
    && (k == 0 ==> forall j :: 0 < j < n ==> c[0] <= c[j])
    && (k > 0 ==> c[k] < c[0] && forall j :: k < j < n ==> c[0] <= c[j])
  }

  predicate ChosenAsWritten(c: seq<int>, k: nat)
    requires 0 < |c|
  {
    ChosenAmong(c, |c|, k)
  }

  /** Least-loaded selection: the strictly smallest counter, the first one
      on a tie. */
  predicate LeastLoaded(c: seq<int>, k: nat) {
    && k < |c|
    && (forall j :: 0 <= j < |c| ==> c[k] <= c[j])
    && (forall j :: 0 <= j < k ==> c[k] < c[j])
  }

  lemma {:induction false} ScanChooses(c: seq<int>, i: nat, chosen: nat)
    requires 0 < i <= |c| && ChosenAmong(c, i, chosen)
    ensures ChosenAsWritten(c, Scan(c, i, chosen))
    decreases |c| - i
  {
    if i < |c| {
      var next := if c[0] > c[i] then i else chosen;
      assert ChosenAmong(c, i + 1, next);
      ScanChooses(c, i + 1, next);
    }
  }

  /** The loop's choice is exactly the one the characterisation describes, and
      no other index satisfies it. */
  lemma ChooseSpec(c: seq<int>, k: nat)
    requires |c| > 0
    ensures ChosenAsWritten(c, Choose(c))
    ensures ChosenAsWritten(c, k) <==> k == Choose(c)
  {
    assert Scan(c, 0, 0) == Scan(c, 1, 0);
    ScanChooses(c, 1, 0);
  }

  /** The chosen worker is never busier than the first, and strictly less
      busy whenever some worker is. */
  lemma ChoiceBeatsFirst(c: seq<int>)
    requires |c| > 0
    ensures c[Choose(c)] <= c[0]
    ensures (exists j :: 0 <= j < |c| && c[j] < c[0]) ==> c[Choose(c)] < c[0]
  {
    ChooseSpec(c, 0);
  }

  /** When the first worker is a least-loaded one, it is the one chosen. */
  lemma ChooseFirstWhenLeast(c: seq<int>)
    requires LeastLoaded(c, 0)
    ensures Choose(c) == 0
  {
    ChooseSpec(c, 0);
  }

  /** Counters [3,1,2]: the loop picks the worker with 2, not the least-loaded one with 1. */
  lemma ChooseMissesLeastLoaded()
    ensures Choose([3, 1, 2]) == 2
    ensures LeastLoaded([3, 1, 2], 1)
    ensures !LeastLoaded([3, 1, 2], Choose([3, 1, 2]))
  {
    var c := [3, 1, 2];
    assert Scan(c, 0, 0) == Scan(c, 1, 0) == Scan(c, 2, 1) == Scan(c, 3, 2) == 2;
  }
}

=== FILE: broadcast.dfy ===
/** Broadcast: a worker posts with header `Service-Call: broadcast:<command>`
    and the gateway relays the body to every worker registered for the
    command (or for every known function name, when the command is `all`),
    except the workers listening on the requester's own port, then answers
    with all collected replies joined. */
module Broadcaster {
  import opened Wrappers
  import opened Redis
  import opened JavaText
  import opened Addressing
  import opened GatewayState

  /** What a run over some addresses produced: the replies appended to the
      aggregate, the calls made, and whether an exception ended the run. */
  datatype Fan = Fan(collected: seq<string>, calls: seq<Call>, aborted: bool)

  const Separator := "~~~"
  const BroadcastPrefix := "broadcast response: "

  /** How a port is read from an address; a broadcast uses `PortOf`. The
      loops below are stated for any reader. */
  type PortReader = string -> Option<int>

  /** The outbound call did not throw. */
  predicate Answers(a: Answer) {
    a.Empty? || a.Reply?
  }

  /** No call from the `start`-th up to, not including, the `end`-th throws. */
  ghost predicate AnswersBetween(net: Network, start: nat, end: nat) {
    forall k :: start <= k < end ==> Answers(net(k))
  }

  /** How an answer enters the aggregate: a body as it is, a `null` body as
      the text Java's string concatenation makes of it. (A call that threw
      never enters it.) */
  function Shown(a: Answer): string {
    if a.Reply? then a.text else "null"
  }

  /** The i-th collected reply is what the (start + i)-th call answered. */
  ghost predicate Aligned(collected: seq<string>, net: Network, start: nat) {
    forall i :: 0 <= i < |collected| ==> collected[i] == Shown(net(start + i))
  }

  lemma AlignedCons(x: string, rest: seq<string>, net: Network, start: nat)
    requires x == Shown(net(start)) && Aligned(rest, net, start + 1)
    ensures Aligned([x] + rest, net, start)
  {
    var c := [x] + rest;
    forall i | 0 <= i < |c| ensures c[i] == Shown(net(start + i)) {
      if i > 0 {
        assert c[i] == rest[i - 1];
        assert start + i == (start + 1) + (i - 1);
      }
    }
  }

  lemma AlignedAppend(a: seq<string>, b: seq<string>, net: Network, start: nat)
    requires Aligned(a, net, start) && Aligned(b, net, start + |a|)
    ensures Aligned(a + b, net, start)
  {
    var c := a + b;
    forall i | 0 <= i < |c| ensures c[i] == Shown(net(start + i)) {
      if i >= |a| {
        assert c[i] == b[i - |a|];
        assert start + i == (start + |a|) + (i - |a|);
      } else {
        assert c[i] == a[i];
      }
    }
  }

  /** Every call is a POST of `payload` to an address not on the requester's
      port. */
  predicate Relays(calls: seq<Call>, port: PortReader, requester: int, payload: string) {
    forall i :: 0 <= i < |calls| ==>
      calls[i].PostTo? && calls[i].payload == payload && port(calls[i].target) != Some(requester)
  }

  /** Each collected reply followed by the separator, concatenated. */
  function Joined(xs: seq<string>): string {
    if xs == [] then "" else xs[0] + Separator + Joined(xs[1..])
  }

  /** Reference definition of the recipients: the addresses, in list order,
      whose port is not the requester's. */
  function Targets(routes: seq<string>, port: PortReader, requester: int): seq<string>
    decreases |routes|
  {
    if routes == [] then []
    else if port(routes[0]) == Some(requester) then Targets(routes[1..], port, requester)
    else [routes[0]] + Targets(routes[1..], port, requester)
  }

  /** The recipients are exactly the addresses of the list not on the
      requester's port. */
  lemma {:induction false} TargetsSpec(routes: seq<string>, port: PortReader, requester: int)
    ensures forall x :: x in Targets(routes, port, requester) <==> x in routes && port(x) != Some(requester)
    decreases |routes|
  {
    if routes != [] {
      TargetsSpec(routes[1..], port, requester);
      forall x ensures x in routes <==> x == routes[0] || x in routes[1..] {
        assert routes == [routes[0]] + routes[1..];
      }
    }
  }

  /** The recipients over several function names, name by name. */
  function AllTargets(st: Store, names: seq<string>, port: PortReader, requester: int): seq<string> {
    if names == [] then []
    else Targets(ListOf(st, names[0]), port, requester) + AllTargets(st, names[1..], port, requester)
  }

  function Posts(targets: seq<string>, payload: string): (r: seq<Call>)
    ensures |r| == |targets|
    ensures forall i :: 0 <= i < |r| ==> r[i] == PostTo(targets[i], payload)
  {
    if targets == [] then [] else [PostTo(targets[0], payload)] + Posts(targets[1..], payload)
  }

  predicate PortsParse(routes: seq<string>, port: PortReader) {
    forall i :: 0 <= i < |routes| ==> port(routes[i]).Some?
  }

  /** No list of the names is held as a string (WRONGTYPE) and every address
      in them carries a port. */
  predicate Reachable(st: Store, names: seq<string>, port: PortReader) {
    forall i :: 0 <= i < |names| ==> !HoldsText(st, names[i]) && PortsParse(ListOf(st, names[i]), port)
  }

  function Prepend(reply: string, call: Call, f: Fan): Fan {
    Fan([reply] + f.collected, [call] + f.calls, f.aborted)
  }

  function Then(f: Fan, g: Fan): Fan {
    Fan(f.collected + g.collected, f.calls + g.calls, g.aborted)
  }

  /** The inner loop over one function's addresses. The k-th call of the
      request is answered by `net(start + k)`. An address whose port cannot
      be read, or a call that throws, ends the whole request. */
  function CallEach(routes: seq<string>, port: PortReader, requester: int, payload: string, net: Network, start: nat): (f: Fan)
    ensures |f.collected| <= |f.calls|
    ensures !f.aborted ==> |f.collected| == |f.calls|
    decreases |routes|
  {
    if routes == [] then Fan([], [], false)
    else match port(routes[0])
      case None => Fan([], [], true)
      case Some(p) =>
        if p == requester then CallEach(routes[1..], port, requester, payload, net, start)
        else
          var call := PostTo(routes[0], payload);
          var a := net(start);
          if !Answers(a) then Fan([], [call], true)
          else
            var rest := CallEach(routes[1..], port, requester, payload, net, start + 1);
            Prepend(Shown(a), call, rest)
  }

  /** Every reply the inner loop collects is the answer to its own call. */
  lemma {:induction false} CallEachAligned(routes: seq<string>, port: PortReader, requester: int, payload: string, net: Network, start: nat)
    ensures Aligned(CallEach(routes, port, requester, payload, net, start).collected, net, start)
    decreases |routes|
  {
    if routes != [] && port(routes[0]).Some? {
      if port(routes[0]).value == requester {
        CallEachAligned(routes[1..], port, requester, payload, net, start);
      } else if Answers(net(start)) {
        var rest := CallEach(routes[1..], port, requester, payload, net, start + 1);
        CallEachAligned(routes[1..], port, requester, payload, net, start + 1);
        AlignedCons(Shown(net(start)), rest.collected, net, start);
      }
    }
  }

  /** The inner loop only posts `payload`, and never to the requester's port. */
  lemma {:induction false} CallEachRelays(routes: seq<string>, port: PortReader, requester: int, payload: string, net: Network, start: nat)
    ensures Relays(CallEach(routes, port, requester, payload, net, start).calls, port, requester, payload)
    decreases |routes|
  {
    if routes != [] && port(routes[0]).Some? {
      if port(routes[0]).value == requester {
        CallEachRelays(routes[1..], port, requester, payload, net, start);
      } else if Answers(net(start)) {
        CallEachRelays(routes[1..], port, requester, payload, net, start + 1);
        RelaysAppend([PostTo(routes[0], payload)], CallEach(routes[1..], port, requester, payload, net, start + 1).calls, port, requester, payload);
      }
    }
  }

  lemma RelaysAppend(a: seq<Call>, b: seq<Call>, port: PortReader, requester: int, payload: string)
    requires Relays(a, port, requester, payload) && Relays(b, port, requester, payload)
    ensures Relays(a + b, port, requester, payload)
  {
    var c := a + b;
    forall i | 0 <= i < |c|
      ensures c[i].PostTo? && c[i].payload == payload && port(c[i].target) != Some(requester)
    {
      if i < |a| { assert c[i] == a[i]; } else { assert c[i] == b[i - |a|]; }
    }
  }

  /** When every port parses and no call throws, the inner loop calls exactly
      the reference recipients, once each, in list order. */
  lemma {:induction false} CallEachCompletes(routes: seq<string>, port: PortReader, requester: int, payload: string, net: Network, start: nat)
    requires PortsParse(routes, port) && AnswersBetween(net, start, start + |Targets(routes, port, requester)|)
    ensures !CallEach(routes, port, requester, payload, net, start).aborted
    ensures CallEach(routes, port, requester, payload, net, start).calls == Posts(Targets(routes, port, requester), payload)
    decreases |routes|
  {
    if routes != [] {
      assert port(routes[0]).Some?;
      assert PortsParse(routes[1..], port) by {
        forall i | 0 <= i < |routes[1..]| ensures port(routes[1..][i]).Some? {
          assert routes[1..][i] == routes[i + 1];
        }
      }
      if port(routes[0]).value == requester {
        CallEachCompletes(routes[1..], port, requester, payload, net, start);
      } else {
        assert Targets(routes, port, requester) == [routes[0]] + Targets(routes[1..], port, requester);
        assert Answers(net(start));
        CallEachCompletes(routes[1..], port, requester, payload, net, start + 1);
      }
    }
  }

  /** The outer loop over function names: `LLEN`/`LRANGE` of each name's
      list, then the inner loop. */
  function FanOut(st: Store, names: seq<string>, port: PortReader, requester: int, payload: string, net: Network, start: nat): (f: Fan)
    ensures |f.collected| <= |f.calls|
    ensures !f.aborted ==> |f.collected| == |f.calls|
    decreases |names|
  {
    if names == [] then Fan([], [], false)
    else match LRange(st, names[0])
      case None => Fan([], [], true)
      case Some(routes) =>
        var f := CallEach(routes, port, requester, payload, net, start);
        if f.aborted then f
        else
          var g := FanOut(st, names[1..], port, requester, payload, net, start + |f.calls|);
          Then(f, g)
  }

  /** One name's worth of the outer loop: the name's list is readable, so
      its inner loop runs and, unless it aborted, the rest of the names
      follow from the next call number. */
  lemma FanOutCons(st: Store, names: seq<string>, port: PortReader, requester: int, payload: string, net: Network, start: nat)
    requires names != [] && !HoldsText(st, names[0])
    ensures CallEach(ListOf(st, names[0]), port, requester, payload, net, start).aborted ==>
      FanOut(st, names, port, requester, payload, net, start) == CallEach(ListOf(st, names[0]), port, requester, payload, net, start)
    ensures !CallEach(ListOf(st, names[0]), port, requester, payload, net, start).aborted ==>
      var f := CallEach(ListOf(st, names[0]), port, requester, payload, net, start);
      FanOut(st, names, port, requester, payload, net, start) == Then(f, FanOut(st, names[1..], port, requester, payload, net, start + |f.calls|))
  {
    assert LRange(st, names[0]) == Some(ListOf(st, names[0]));
  }

  /** `FanOutCons` for an inner loop `f` that finished. */
  lemma FanOutUnfold(st: Store, names: seq<string>, port: PortReader, requester: int, payload: string, net: Network, start: nat, f: Fan)
    requires names != [] && !HoldsText(st, names[0])
    requires f == CallEach(ListOf(st, names[0]), port, requester, payload, net, start) && !f.aborted
    ensures FanOut(st, names, port, requester, payload, net, start) == Then(f, FanOut(st, names[1..], port, requester, payload, net, start + |f.calls|))
  {
    assert LRange(st, names[0]) == Some(ListOf(st, names[0]));
  }

  /** A name whose key holds a string aborts the outer loop (WRONGTYPE). */
  lemma FanOutStops(st: Store, names: seq<string>, port: PortReader, requester: int, payload: string, net: Network, start: nat)
    requires names != [] && HoldsText(st, names[0])
    ensures FanOut(st, names, port, requester, payload, net, start) == Fan([], [], true)
  {
    assert LRange(st, names[0]).None?;
  }

  lemma {:induction false} FanOutAligned(st: Store, names: seq<string>, port: PortReader, requester: int, payload: string, net: Network, start: nat)
    ensures Aligned(FanOut(st, names, port, requester, payload, net, start).collected, net, start)
    decreases |names|
  {
    if names != [] {
      if HoldsText(st, names[0]) {
        FanOutStops(st, names, port, requester, payload, net, start);
      } else {
        var f := CallEach(ListOf(st, names[0]), port, requester, payload, net, start);
        FanOutCons(st, names, port, requester, payload, net, start);
        CallEachAligned(ListOf(st, names[0]), port, requester, payload, net, start);
        if !f.aborted {
          var next := start + |f.calls|;
          var g := FanOut(st, names[1..], port, requester, payload, net, next);
          FanOutAligned(st, names[1..], port, requester, payload, net, next);
          AlignedThen(f, g, net, start);
          assert FanOut(st, names, port, requester, payload, net, start) == Then(f, g);
        }
      }
    }
  }

  lemma AlignedThen(f: Fan, g: Fan, net: Network, start: nat)
    requires |f.collected| == |f.calls|
    requires Aligned(f.collected, net, start) && Aligned(g.collected, net, start + |f.calls|)
    ensures Aligned(Then(f, g).collected, net, start)
  {
    AlignedAppend(f.collected, g.collected, net, start);
  }

  lemma {:induction false} FanOutRelays(st: Store, names: seq<string>, port: PortReader, requester: int, payload: string, net: Network, start: nat)
    ensures Relays(FanOut(st, names, port, requester, payload, net, start).calls, port, requester, payload)
    decreases |names|
  {
    if names != [] {
      if HoldsText(st, names[0]) {
        FanOutStops(st, names, port, requester, payload, net, start);
      } else {
        var f := CallEach(ListOf(st, names[0]), port, requester, payload, net, start);
        FanOutCons(st, names, port, requester, payload, net, start);
        CallEachRelays(ListOf(st, names[0]), port, requester, payload, net, start);
        if !f.aborted {
          var next := start + |f.calls|;
          FanOutRelays(st, names[1..], port, requester, payload, net, next);
          RelaysAppend(f.calls, FanOut(st, names[1..], port, requester, payload, net, next).calls, port, requester, payload);
        }
      }
    }
  }

  lemma ReachableTail(st: Store, names: seq<string>, port: PortReader)
    requires names != [] && Reachable(st, names, port)
    ensures !HoldsText(st, names[0]) && PortsParse(ListOf(st, names[0]), port)
    ensures Reachable(st, names[1..], port)
  {
    forall i | 0 <= i < |names[1..]|
      ensures !HoldsText(st, names[1..][i]) && PortsParse(ListOf(st, names[1..][i]), port)
    {
      assert names[1..][i] == names[i + 1];
    }
  }

  lemma ReachableCons(st: Store, names: seq<string>, port: PortReader)
    requires names != [] && !HoldsText(st, names[0]) && PortsParse(ListOf(st, names[0]), port)
    requires Reachable(st, names[1..], port)
    ensures Reachable(st, names, port)
  {
    forall i | 0 <= i < |names| ensures !HoldsText(st, names[i]) && PortsParse(ListOf(st, names[i]), port) {
      if i > 0 { assert names[i] == names[1..][i - 1]; }
    }
  }

  lemma {:induction false} FanOutCompletes(st: Store, names: seq<string>, port: PortReader, requester: int, payload: string, net: Network, start: nat)
    requires Reachable(st, names, port)
    requires AnswersBetween(net, start, start + |AllTargets(st, names, port, requester)|)
    ensures !FanOut(st, names, port, requester, payload, net, start).aborted
    ensures FanOut(st, names, port, requester, payload, net, start).calls == Posts(AllTargets(st, names, port, requester), payload)
    decreases |names|
  {
    if names != [] {
      var f := CallEach(ListOf(st, names[0]), port, requester, payload, net, start);
      CompletesHead(st, names, port, requester, payload, net, start);
      var next := start + |f.calls|;
      var g := FanOut(st, names[1..], port, requester, payload, net, next);
      FanOutCompletes(st, names[1..], port, requester, payload, net, next);
      CompletesCons(st, names, port, requester, payload, net, start, f, g);
    }
  }

  /** The first name of `FanOutCompletes`: its inner loop finishes, and the
      rest of the names meet the lemma's requirements from the next call on. */
  lemma CompletesHead(st: Store, names: seq<string>, port: PortReader, requester: int, payload: string, net: Network, start: nat)
    requires names != [] && Reachable(st, names, port)
    requires AnswersBetween(net, start, start + |AllTargets(st, names, port, requester)|)
    ensures !HoldsText(st, names[0]) && Reachable(st, names[1..], port)
    ensures var f := CallEach(ListOf(st, names[0]), port, requester, payload, net, start);
      && !f.aborted && f.calls == Posts(Targets(ListOf(st, names[0]), port, requester), payload)
      && AnswersBetween(net, start + |f.calls|, start + |f.calls| + |AllTargets(st, names[1..], port, requester)|)
  {
    var routes := ListOf(st, names[0]);
    ReachableTail(st, names, port);
    assert AllTargets(st, names, port, requester) == Targets(routes, port, requester) + AllTargets(st, names[1..], port, requester);
    CallEachCompletes(routes, port, requester, payload, net, start);
  }

  /** The step of `FanOutCompletes` past one name. */
  lemma CompletesCons(st: Store, names: seq<string>, port: PortReader, requester: int, payload: string, net: Network, start: nat,
                      f: Fan, g: Fan)
    requires names != [] && !HoldsText(st, names[0])
    requires f == CallEach(ListOf(st, names[0]), port, requester, payload, net, start)
    requires g == FanOut(st, names[1..], port, requester, payload, net, start + |f.calls|)
    requires && !f.aborted && f.calls == Posts(Targets(ListOf(st, names[0]), port, requester), payload)
      && !g.aborted && g.calls == Posts(AllTargets(st, names[1..], port, requester), payload)
    ensures !FanOut(st, names, port, requester, payload, net, start).aborted
    ensures FanOut(st, names, port, requester, payload, net, start).calls == Posts(AllTargets(st, names, port, requester), payload)
  {
    var routes := ListOf(st, names[0]);
    FanOutUnfold(st, names, port, requester, payload, net, start, f);
    var first, rest := Targets(routes, port, requester), AllTargets(st, names[1..], port, requester);
    PostsAppend(first, rest, payload);
    assert AllTargets(st, names, port, requester) == first + rest;
  }

  lemma {:induction false} PostsAppend(a: seq<string>, b: seq<string>, payload: string)
    ensures Posts(a + b, payload) == Posts(a, payload) + Posts(b, payload)
    decreases |a|
  {
    if a != [] {
      assert (a + b)[0] == a[0] && (a + b)[1..] == a[1..] + b;
      PostsAppend(a[1..], b, payload);
    }
  }

  /** Joining distributes over concatenation: replies left from an earlier
      broadcast come out first, each with its separator. */
  lemma {:induction false} JoinedAppend(a: seq<string>, b: seq<string>)
    ensures Joined(a + b) == Joined(a) + Joined(b)
    decreases |a|
  {
    if a != [] {
      assert (a + b)[0] == a[0] && (a + b)[1..] == a[1..] + b;
      JoinedAppend(a[1..], b);
      calc {
        Joined(a + b);
        a[0] + Separator + Joined(a[1..] + b);
        a[0] + Separator + (Joined(a[1..]) + Joined(b));
        (a[0] + Separator + Joined(a[1..])) + Joined(b);
      }
    } else {
      assert a + b == b;
    }
  }

  /** Every call but the last was answered, and one reply was collected
      per answered call: all of them, or all but a last call that threw. */
  ghost predicate Accounted(f: Fan, net: Network, start: nat) {
    && (forall k :: start <= k < start + |f.calls| - 1 ==> Answers(net(k)))
    && |f.calls| - 1 <= |f.collected| <= |f.calls|
    && (|f.collected| == |f.calls| <==> f.calls == [] || Answers(net(start + |f.calls| - 1)))
  }

  lemma AccountedPrepend(x: string, call: Call, f: Fan, net: Network, start: nat)
    requires Answers(net(start)) && Accounted(f, net, start + 1)
    ensures Accounted(Prepend(x, call, f), net, start)
  {
    var h := Prepend(x, call, f);
    forall k | start <= k < start + |h.calls| - 1 ensures Answers(net(k)) {
      if k > start {
        assert start + 1 <= k < (start + 1) + |f.calls| - 1;
      }
    }
    if f.calls == [] {
      assert start + |h.calls| - 1 == start;
    } else {
      assert start + |h.calls| - 1 == (start + 1) + |f.calls| - 1;
    }
  }

  lemma AccountedThen(f: Fan, g: Fan, net: Network, start: nat)
    requires Accounted(f, net, start) && |f.collected| == |f.calls|
    requires Accounted(g, net, start + |f.calls|)
    ensures Accounted(Then(f, g), net, start)
  {
    var h := Then(f, g);
    var mid := start + |f.calls|;
    forall k | start <= k < start + |h.calls| - 1 ensures Answers(net(k)) {
      if k >= mid {
        assert mid <= k < mid + |g.calls| - 1;
      } else if k == mid - 1 {
        assert f.calls != [] && k == start + |f.calls| - 1;
      }
    }
    if g.calls == [] {
      assert h.calls == f.calls;
    } else {
      assert start + |h.calls| - 1 == mid + |g.calls| - 1;
    }
  }

  lemma {:induction false} CallEachAccounts(routes: seq<string>, port: PortReader, requester: int, payload: string, net: Network, start: nat)
    ensures Accounted(CallEach(routes, port, requester, payload, net, start), net, start)
    decreases |routes|
  {
    if routes != [] && port(routes[0]).Some? {
      if port(routes[0]).value == requester {
        CallEachAccounts(routes[1..], port, requester, payload, net, start);
      } else if Answers(net(start)) {
        CallEachAccounts(routes[1..], port, requester, payload, net, start + 1);
        AccountedPrepend(Shown(net(start)), PostTo(routes[0], payload),
          CallEach(routes[1..], port, requester, payload, net, start + 1), net, start);
      }
    }
  }

  lemma {:induction false} FanOutAccounts(st: Store, names: seq<string>, port: PortReader, requester: int, payload: string, net: Network, start: nat)
    ensures Accounted(FanOut(st, names, port, requester, payload, net, start), net, start)
    decreases |names|
  {
    if names != [] {
      if HoldsText(st, names[0]) {
        FanOutStops(st, names, port, requester, payload, net, start);
      } else {
        var f := CallEach(ListOf(st, names[0]), port, requester, payload, net, start);
        if f.aborted {
          FanOutCons(st, names, port, requester, payload, net, start);
          CallEachAccounts(ListOf(st, names[0]), port, requester, payload, net, start);
        } else {
          FanOutAccounts(st, names[1..], port, requester, payload, net, start + |f.calls|);
          AccountedCons(st, names, port, requester, payload, net, start);
        }
      }
    }
  }

  /** The step of `FanOutAccounts` past one name whose inner loop finished. */
  lemma AccountedCons(st: Store, names: seq<string>, port: PortReader, requester: int, payload: string, net: Network, start: nat)
    requires names != [] && !HoldsText(st, names[0])
    requires var f := CallEach(ListOf(st, names[0]), port, requester, payload, net, start);
      && !f.aborted
      && Accounted(FanOut(st, names[1..], port, requester, payload, net, start + |f.calls|), net, start + |f.calls|)
    ensures Accounted(FanOut(st, names, port, requester, payload, net, start), net, start)
  {
    var f := CallEach(ListOf(st, names[0]), port, requester, payload, net, start);
    var g := FanOut(st, names[1..], port, requester, payload, net, start + |f.calls|);
    CallEachAccounts(ListOf(st, names[0]), port, requester, payload, net, start);
    FanOutCons(st, names, port, requester, payload, net, start);
    AccountedThen(f, g, net, start);
  }

  /** The converse of `CallEachCompletes`: an inner loop that did not abort
      read every port and called exactly the reference recipients. */
  lemma {:induction false} CallEachFinished(routes: seq<string>, port: PortReader, requester: int, payload: string, net: Network, start: nat)
    requires !CallEach(routes, port, requester, payload, net, start).aborted
    ensures PortsParse(routes, port)
    ensures CallEach(routes, port, requester, payload, net, start).calls == Posts(Targets(routes, port, requester), payload)
    decreases |routes|
  {
    if routes != [] {
      assert port(routes[0]).Some?;
      var next := if port(routes[0]).value == requester then start else start + 1;
      CallEachFinished(routes[1..], port, requester, payload, net, next);
      forall i | 0 <= i < |routes| ensures port(routes[i]).Some? {
        if i > 0 { assert routes[i] == routes[1..][i - 1]; }
      }
    }
  }

  /** The converse of `FanOutCompletes`: an outer loop that did not abort
      found every list readable and every port parseable, and called
      exactly the reference recipients. */
  lemma {:induction false} FanOutFinished(st: Store, names: seq<string>, port: PortReader, requester: int, payload: string, net: Network, start: nat)
    requires !FanOut(st, names, port, requester, payload, net, start).aborted
    ensures Reachable(st, names, port)
    ensures FanOut(st, names, port, requester, payload, net, start).calls == Posts(AllTargets(st, names, port, requester), payload)
    decreases |names|
  {
    if names != [] {
      if HoldsText(st, names[0]) {
        FanOutStops(st, names, port, requester, payload, net, start);
      } else {
        var routes := ListOf(st, names[0]);
        var f := CallEach(routes, port, requester, payload, net, start);
        FanOutCons(st, names, port, requester, payload, net, start);
        CallEachFinished(routes, port, requester, payload, net, start);
        var next := start + |f.calls|;
        var g := FanOut(st, names[1..], port, requester, payload, net, next);
        var whole := FanOut(st, names, port, requester, payload, net, start);
        assert whole == Then(f, g);
        FanOutFinished(st, names[1..], port, requester, payload, net, next);
        ReachableCons(st, names, port);
        var first, rest := Targets(routes, port, requester), AllTargets(st, names[1..], port, requester);
        PostsAppend(first, rest, payload);
        assert whole.calls == Posts(first + rest, payload);
        assert AllTargets(st, names, port, requester) == first + rest;
      }
    }
  }

  /** The names a broadcast command covers: every known function name for
      `all`, in the order they were first registered, else the command
      itself as one name. */
  function Names(g: Gateway, command: string): seq<string> {
    if command == "all" then g.functions else [command]
  }

  /** A broadcast of `payload` for `command` from the worker on port
      `requester`. The aggregate is an instance field: replies collected
      before an exception stay in it, and are emitted by the next broadcast
      that completes. Nothing else in the gateway changes. */
  function Broadcast(g: Gateway, command: string, requester: int, payload: string, net: Network): (s: Step)
    ensures s.next.store == g.store && s.next.functions == g.functions
    ensures s.next.localCache == g.localCache && s.next.promoted == g.promoted
    ensures Relays(s.calls, PortOf, requester, payload)
    ensures s.response.Aborted? || s.response.Sent?
    ensures s.response.Sent? ==> s.next.aggregate == []
    ensures s.response.Aborted? ==>
      |g.aggregate| <= |s.next.aggregate| <= |g.aggregate| + |s.calls|
      && s.next.aggregate[..|g.aggregate|] == g.aggregate
  {
    var f := FanOut(g.store, Names(g, command), PortOf, requester, payload, net, 0);
    FanOutRelays(g.store, Names(g, command), PortOf, requester, payload, net, 0);
    if f.aborted then
      var leftover := g.aggregate + f.collected;
      assert leftover[..|g.aggregate|] == g.aggregate;
      Step(g.(aggregate := leftover), Aborted, f.calls)
    else Step(g.(aggregate := []), Sent(BroadcastPrefix + Joined(g.aggregate + f.collected)), f.calls)
  }

  /** A completed broadcast answers the earlier leftovers, then the reply to
      each of its own calls in call order, each followed by the separator. */
  lemma BroadcastReply(g: Gateway, command: string, requester: int, payload: string, net: Network)
    requires Broadcast(g, command, requester, payload, net).response.Sent?
    ensures var s := Broadcast(g, command, requester, payload, net);
      exists replies: seq<string> ::
        && Aligned(replies, net, 0) && |replies| == |s.calls|
        && s.response.body == BroadcastPrefix + Joined(g.aggregate) + Joined(replies)
  {
    var f := FanOut(g.store, Names(g, command), PortOf, requester, payload, net, 0);
    FanOutAligned(g.store, Names(g, command), PortOf, requester, payload, net, 0);
    JoinedAppend(g.aggregate, f.collected);
    assert Aligned(f.collected, net, 0);
  }

  /** An aborted broadcast leaves the replies it did collect behind the
      earlier leftovers, each the answer of its own call. */
  lemma BroadcastLeftovers(g: Gateway, command: string, requester: int, payload: string, net: Network)
    requires Broadcast(g, command, requester, payload, net).response.Aborted?
    ensures var s := Broadcast(g, command, requester, payload, net);
      Aligned(s.next.aggregate[|g.aggregate|..], net, 0)
  {
    var f := FanOut(g.store, Names(g, command), PortOf, requester, payload, net, 0);
    FanOutAligned(g.store, Names(g, command), PortOf, requester, payload, net, 0);
    assert (g.aggregate + f.collected)[|g.aggregate|..] == f.collected;
  }

  /** With every list readable, every port parseable and no call to a
      recipient throwing, a broadcast completes, calls each recipient of the reference
      definition exactly once in order, and empties the aggregate. */
  lemma BroadcastCompletes(g: Gateway, command: string, requester: int, payload: string, net: Network)
    requires Reachable(g.store, Names(g, command), PortOf)
    requires AnswersBetween(net, 0, |AllTargets(g.store, Names(g, command), PortOf, requester)|)
    ensures var s := Broadcast(g, command, requester, payload, net);
      && s.response.Sent? && s.next.aggregate == []
      && s.calls == Posts(AllTargets(g.store, Names(g, command), PortOf, requester), payload)
  {
    FanOutCompletes(g.store, Names(g, command), PortOf, requester, payload, net, 0);
  }

  /** A list held as a string, an address without a readable port, or a
      call to a recipient that throws aborts the whole broadcast. What it
      leaves in the aggregate, after the earlier leftovers, is the reply to
      every call it made, except a last call that threw. */
  lemma BroadcastAborts(g: Gateway, command: string, requester: int, payload: string, net: Network)
    requires || !Reachable(g.store, Names(g, command), PortOf)
             || exists k :: 0 <= k < |AllTargets(g.store, Names(g, command), PortOf, requester)| && !Answers(net(k))
    ensures var s := Broadcast(g, command, requester, payload, net);
      && s.response.Aborted?
      && var extra := s.next.aggregate[|g.aggregate|..];
      && Aligned(extra, net, 0)
      && (forall k :: 0 <= k < |s.calls| - 1 ==> Answers(net(k)))
      && |s.calls| - 1 <= |extra| <= |s.calls|
      && (|extra| == |s.calls| <==> s.calls == [] || Answers(net(|s.calls| - 1)))
  {
    var names := Names(g, command);
    var f := FanOut(g.store, names, PortOf, requester, payload, net, 0);
    if !f.aborted {
      FanOutFinished(g.store, names, PortOf, requester, payload, net, 0);
      FanOutAccounts(g.store, names, PortOf, requester, payload, net, 0);
      assert false;
    }
    FanOutAligned(g.store, names, PortOf, requester, payload, net, 0);
    FanOutAccounts(g.store, names, PortOf, requester, payload, net, 0);
    assert (g.aggregate + f.collected)[|g.aggregate|..] == f.collected;
  }

  /** A broadcast completes exactly when every list is readable, every port
      parseable and every call to a recipient answered. */
  lemma BroadcastSentIff(g: Gateway, command: string, requester: int, payload: string, net: Network)
    ensures Broadcast(g, command, requester, payload, net).response.Sent? <==>
      && Reachable(g.store, Names(g, command), PortOf)
      && AnswersBetween(net, 0, |AllTargets(g.store, Names(g, command), PortOf, requester)|)
  {
    var n := |AllTargets(g.store, Names(g, command), PortOf, requester)|;
    if Reachable(g.store, Names(g, command), PortOf) && AnswersBetween(net, 0, n) {
      BroadcastCompletes(g, command, requester, payload, net);
    } else {
      BroadcastAborts(g, command, requester, payload, net);
    }
  }

  /** Replies collected before an exception surface in the next completed
      broadcast, ahead of that broadcast's own replies. */
  lemma LeftoversLeak(g: Gateway, c1: string, c2: string, requester: int, p1: string, p2: string,
                      net1: Network, net2: Network)
    requires Broadcast(g, c1, requester, p1, net1).response.Aborted?
    requires Broadcast(Broadcast(g, c1, requester, p1, net1).next, c2, requester, p2, net2).response.Sent?
    ensures var s1 := Broadcast(g, c1, requester, p1, net1);
      var s2 := Broadcast(s1.next, c2, requester, p2, net2);
      StartsWith(s2.response.body, BroadcastPrefix + Joined(s1.next.aggregate))
  {
    var s1 := Broadcast(g, c1, requester, p1, net1);
    var s2 := Broadcast(s1.next, c2, requester, p2, net2);
    BroadcastReply(s1.next, c2, requester, p2, net2);
    var replies :| s2.response.body == BroadcastPrefix + Joined(s1.next.aggregate) + Joined(replies);
    var head := BroadcastPrefix + Joined(s1.next.aggregate);
    assert s2.response.body == head + Joined(replies);
    assert (head + Joined(replies))[..|head|] == head;
  }
}

=== FILE: conversations.dfy ===
/** Properties of conversations that span several gateway requests. */
module Conversations {
  import opened Wrappers
  import opened Decimal
  import opened JavaText
  import opened Redis
  import opened Addressing
  import opened GatewayState
  import opened ResultCache
  import opened Dispatcher
  import opened Correlation
  import opened GatewayHandler
  import ConvertHandler

  /** Asking again for a process the gateway has just finalised: a reply that
      carried a result is now served from the cache without calling any
      worker; a reply without one has left no trace, so the process is
      unknown. This holds when the worker's reply names the requested id. */
  lemma RepeatedGet(g: Gateway, uri: string, net1: Network, net2: Network)
    requires RequestedId(uri).Some?
    requires var id := ToString(RequestedId(uri).value);
      && Find(g, CacheKey(id)).Missing?
      && Get(g.store, id).Found?
      && CounterOf(g.store, Get(g.store, id).text).Some?
      && net1(0).Reply? && net1(0).id == Some(id)
    ensures var s1 := Handle(g, GetRequest(uri), net1);
      var text := net1(0).text;
      && s1.response == Sent(text)
      && (Contains(text, "response") ==>
            |text| >= 1 && Handle(s1.next, GetRequest(uri), net2) == Step(s1.next, Sent(CachedForm(text)), []))
      && (!Contains(text, "response") ==>
            Handle(s1.next, GetRequest(uri), net2) == Step(s1.next, Error(NoGetRouteMessage), []))
  {
    var n := RequestedId(uri).value;
    var id := ToString(n);
    var route := Get(g.store, id).text;
    var text := net1(0).text;
    var s1 := HandleGet(g, uri, net1);
    var g1 := s1.next;
    assert Finalized(g, route, net1(0), s1.(calls := []));
    KeysDiffer(route, n);
    assert Relayed(g, route, CounterOf(g.store, route).value, id, text, s1.(calls := []));
    assert id !in g1.store;
    if Contains(text, "response") {
      ContainsIsLongEnough(text, "response");
      if |g.localCache| < g.promoted {
        assert CachedLocally(g, route, id, text, s1.(calls := []));
        OnlyWrittenGet(g.store, g1.store, {CounterKey(route), id}, CacheKey(id));
        assert Find(g1, CacheKey(id)) == Found(CachedForm(text));
      } else {
        assert CachedShared(g, route, id, text, s1.(calls := []));
        assert Find(g1, CacheKey(id)) == Found(CachedForm(text));
      }
    } else {
      assert CachedNothing(g, route, id, s1.(calls := []));
      OnlyWrittenGet(g.store, g1.store, {CounterKey(route), id}, CacheKey(id));
      assert Find(g1, CacheKey(id)).Missing?;
    }
  }

  /** The decimal text of 0, and the URI of process 0 assembled from the
      pieces `RequestedIdOfQuery` names: string-literal facts kept in lemmas
      of their own so the solver meets each literal once. */
  lemma ZeroText()
    ensures ToString(0) == "0"
  {
    assert Digits(0) == [DigitChar(0)];
  }

  lemma ZeroUriText()
    ensures "/" + "?" + "id" + "=" + ToString(0) == "/?id=0"
  {
    ZeroText();
  }

  /** The GET URI the client uses for process 0. */
  lemma UriOfProcessZero()
    ensures RequestedId("/?id=0") == Some(0) && ToString(0) == "0"
  {
    ZeroText();
    ZeroUriText();
    RequestedIdOfQuery("/", "id", 0);
  }

  /** A dispatch whose chosen worker refuses the connection, for a request
      that names an address, also deletes the key "0": the correlation of
      process 0, whichever worker owned it. A GET for process 0 that was
      forwarded to its worker before is answered "not found" after. */
  lemma RefusedDispatchForgetsProcessZero(g: Gateway, fields: Fields, payload: string,
                                          net: Network, net2: Network)
    requires fields.functionName.Some? && fields.address.Some?
    requires fields.functionName.value != CacheKey("0")
    requires net(0).Refused?
    requires ListOf(g.store, fields.functionName.value) != []
    requires ReadCounters(g.store, ListOf(g.store, fields.functionName.value)).Some?
    requires HoldsText(g.store, "0") && Find(g, CacheKey("0")).Missing?
    ensures Handle(g, GetRequest("/?id=0"), net2).calls != []
    ensures var s := Handle(g, PostRequest(None, None, Some(fields), payload), net);
      && s.response == Error(NoPostReplyMessage)
      && Handle(s.next, GetRequest("/?id=0"), net2) == Step(s.next, Error(NoGetRouteMessage), [])
  {
    UriOfProcessZero();
    var s := Dispatch(g, fields, payload, net);
    assert s.calls != [];
    assert s == Handle(g, PostRequest(None, None, Some(fields), payload), net);
    var f := fields.functionName.value;
    var target := s.calls[0].target;
    var first := ReadCounters(g.store, ListOf(g.store, f)).value[0];
    assert Forwarded(g, f, fields.address, target, first, payload, net(0), s);
    assert "0" !in s.next.store;
    assert CacheKey("0") !in s.next.store;
    assert Find(s.next, CacheKey("0")).Missing?;
  }

  /** The example worker answers a GET with a body that has no `id` field,
      and the gateway reads the reply's `id` after it has decremented the
      worker's counter: the client gets no answer, the counter still drops,
      and the correlation stays, so the next GET calls the worker again. */
  lemma ExampleWorkerReplyAborts(g: Gateway, uri: string, net: Network)
    requires RequestedId(uri).Some?
    requires var id := ToString(RequestedId(uri).value);
      && Find(g, CacheKey(id)).Missing?
      && Get(g.store, id).Found?
      && CounterOf(g.store, Get(g.store, id).text).Some?
    requires net(0) == Reply(ConvertHandler.ResultReply, None)
    ensures var id := ToString(RequestedId(uri).value);
      var route := Get(g.store, id).text;
      var s := Handle(g, GetRequest(uri), net);
      && s.response == Aborted
      && CounterOf(s.next.store, route) == Some(Wrap32(CounterOf(g.store, route).value - 1))
      && Get(s.next.store, id) == Found(route)
      && Handle(s.next, GetRequest(uri), net).calls == [GetFrom(route + "?id=" + id)]
  {
    var n := RequestedId(uri).value;
    var id := ToString(n);
    var route := Get(g.store, id).text;
    var s := HandleGet(g, uri, net);
    assert Finalized(g, route, net(0), s.(calls := []));
    KeysDiffer(route, n);
    OnlyWrittenGet(g.store, s.next.store, {CounterKey(route)}, id);
    OnlyWrittenGet(g.store, s.next.store, {CounterKey(route)}, CacheKey(id));
    assert Find(s.next, CacheKey(id)).Missing?;
  }
}

=== FILE: correlation.dfy ===
/** The process correlation table (key `<id>` maps to the worker address that
    owns process `<id>`) and the two verbs that follow it: PUT relays a step
    of the conversation to the owning worker, GET finalises it. */
module Correlation {
  import opened Wrappers
  import opened Decimal
  import opened JavaText
  import opened Redis
  import opened Addressing
  import opened GatewayState
  import opened ResultCache

  /** A PUT: relays the body verbatim to the worker recorded under the body's
      `id`, and relays the worker's reply back. Gateway state never changes. */
  function HandlePut(g: Gateway, fields: Fields, payload: string, net: Network): (s: Step)
    ensures s.next == g
    ensures |s.calls| <= 1
    ensures fields.id.None? ==> s.response == Aborted && s.calls == []
    ensures fields.id.Some? && Get(g.store, fields.id.value).Missing? ==>
      s.response == Error(NoPutRouteMessage) && s.calls == []
    ensures fields.id.Some? && Get(g.store, fields.id.value).WrongType? ==>
      s.response == Aborted && s.calls == []
    ensures fields.id.Some? && Get(g.store, fields.id.value).Found? ==>
      && s.calls == [PutTo(Get(g.store, fields.id.value).text, payload)]
      && (net(0).Refused? || net(0).Failed? ==> s.response == Aborted)
      && (net(0).Empty? ==> s.response == Error(NoPutReplyMessage))
      && (net(0).Reply? ==> s.response == Sent(net(0).text))
  {
    if fields.id.None? then Step(g, Aborted, [])
    else match Get(g.store, fields.id.value)
      case Missing => Step(g, Error(NoPutRouteMessage), [])
      case WrongType => Step(g, Aborted, [])
      case Found(route) =>
        var calls := [PutTo(route, payload)];
        match net(0)
        case Reply(text, _) => Step(g, Sent(text), calls)
        case Empty => Step(g, Error(NoPutReplyMessage), calls)
        case _ => Step(g, Aborted, calls)
  }

  /** The worker answered the forwarded GET with `text` carrying id `rid`,
      and the owner's counter read `c`: what the remaining lines do to the
      correlation and the counter, and what the client gets. */
  ghost predicate Relayed(g: Gateway, route: string, c: int, rid: string, text: string, s: Step) {
    && s.response == Sent(text)
    && s.next.functions == g.functions && s.next.aggregate == g.aggregate
    && rid !in s.next.store
    && (CounterKey(route) != rid && CounterKey(route) != CacheKey(rid) ==>
          CounterOf(s.next.store, route) == Some(Wrap32(c - 1)))
  }

  /** A reply without a result leaves both cache tiers alone. */
  ghost predicate CachedNothing(g: Gateway, route: string, rid: string, s: Step) {
    && s.next.localCache == g.localCache && s.next.promoted == g.promoted
    && OnlyWritten(g.store, s.next.store, {CounterKey(route), rid})
  }

  /** A reply with a result, while the local tier is below the promotion
      count, goes to the local tier only. */
  ghost predicate CachedLocally(g: Gateway, route: string, rid: string, text: string, s: Step)
    requires |text| >= 1
  {
    && s.next.localCache == g.localCache[CacheKey(rid) := CachedForm(text)]
    && s.next.promoted == g.promoted
    && OnlyWritten(g.store, s.next.store, {CounterKey(route), rid})
  }

  /** Otherwise it goes to the Redis tier and counts one more promotion. */
  ghost predicate CachedShared(g: Gateway, route: string, rid: string, text: string, s: Step)
    requires |text| >= 1
  {
    && s.next.localCache == g.localCache
    && s.next.promoted == Wrap32(g.promoted + 1)
    && Get(s.next.store, CacheKey(rid)) == Found(CachedForm(text))
    && OnlyWritten(g.store, s.next.store, {CounterKey(route), rid, CacheKey(rid)})
  }

  /** ... and what they do to the cache tiers: nothing without a result in the
      reply, else the cached form goes to exactly one tier. */
  ghost predicate Cached(g: Gateway, route: string, rid: string, text: string, hasResult: bool, s: Step) {
    && (!hasResult ==> CachedNothing(g, route, rid, s))
    && (hasResult && |text| >= 1 && |g.localCache| < g.promoted ==>
          CachedLocally(g, route, rid, text, s))
    && (hasResult && |text| >= 1 && |g.localCache| >= g.promoted ==>
          CachedShared(g, route, rid, text, s))
  }

  /** The effect of finalising a process owned by `route`, given the worker's
      `answer` to the forwarded GET. */
  ghost predicate Finalized(g: Gateway, route: string, answer: Answer, s: Step) {
    && (answer.Refused? || answer.Failed? ==> s.next == g && s.response == Aborted)
    && (answer.Empty? ==> s.next == g && s.response == Error(NoGetReplyMessage))
    && (answer.Reply? && CounterOf(g.store, route).None? ==> s.next == g && s.response == Aborted)
    && (answer.Reply? && CounterOf(g.store, route).Some? && answer.id.None? ==>
          && s.response == Aborted
          && s.next == g.(store := s.next.store)
          && CounterOf(s.next.store, route) == Some(Wrap32(CounterOf(g.store, route).value - 1))
          && OnlyWritten(g.store, s.next.store, {CounterKey(route)}))
    && (answer.Reply? && CounterOf(g.store, route).Some? && answer.id.Some? ==>
          && Relayed(g, route, CounterOf(g.store, route).value, answer.id.value, answer.text, s)
          && Cached(g, route, answer.id.value, answer.text, Contains(answer.text, "response"), s))
  }

  /** The last lines of a finalisation: delete the correlation under the
      reply's id `rid`, cache the reply if it carries a result (`hasResult`,
      whether it contains "response"), relay it. */
  function Complete(g: Gateway, rid: string, text: string, hasResult: bool): (s: Step)
    requires hasResult ==> |text| >= 1
    ensures s.response == Sent(text) && s.calls == []
    ensures s.next.functions == g.functions && s.next.aggregate == g.aggregate
    ensures rid !in s.next.store
  {
    var g' := g.(store := Del(g.store, {rid}));
    assert CacheKey(rid) != rid by {
      assert |CacheKey(rid)| > |rid|;
    }
    if hasResult then
      Step(Insert(g', CacheKey(rid), CachedForm(text)), Sent(text), [])
    else Step(g', Sent(text), [])
  }

  /** The lines after the worker was asked for the result: decrement the
      owner's counter (no floor, Java `int`), read the reply's id, delete the
      correlation under THAT id, cache the reply if it has a result, relay it. */
  function Finalize(g: Gateway, route: string, answer: Answer): (s: Step)
    ensures s.calls == []
  {
    match answer
    case Refused => Step(g, Aborted, [])
    case Failed => Step(g, Aborted, [])
    case Empty => Step(g, Error(NoGetReplyMessage), [])
    case Reply(text, rid) =>
      match CounterOf(g.store, route)
      case None => Step(g, Aborted, [])
      case Some(c) =>
        var g' := g.(store := Set(g.store, CounterKey(route), ToString(Wrap32(c - 1))));
        if rid.None? then Step(g', Aborted, [])
        else if Contains(text, "response") then
          ContainsIsLongEnough(text, "response");
          Complete(g', rid.value, text, true)
        else Complete(g', rid.value, text, false)
  }

  lemma CompleteRelays(g: Gateway, g': Gateway, route: string, c: int, rid: string, text: string, hasResult: bool)
    requires g' == g.(store := Set(g.store, CounterKey(route), ToString(Wrap32(c - 1))))
    requires hasResult ==> |text| >= 1
    ensures Relayed(g, route, c, rid, text, Complete(g', rid, text, hasResult))
  {
    var s := Complete(g', rid, text, hasResult);
    if CounterKey(route) != rid && CounterKey(route) != CacheKey(rid) {
      CounterRoundTrip(g.store, route, Wrap32(c - 1));
      assert Get(s.next.store, CounterKey(route)) == Get(g'.store, CounterKey(route));
    }
  }

  lemma CompleteUncached(g: Gateway, g': Gateway, route: string, c: int, rid: string, text: string)
    requires g' == g.(store := Set(g.store, CounterKey(route), ToString(Wrap32(c - 1))))
    ensures CachedNothing(g, route, rid, Complete(g', rid, text, false))
  {
    assert Complete(g', rid, text, false).next.store == Del(g'.store, {rid});
    SetThenDel(g.store, CounterKey(route), ToString(Wrap32(c - 1)), rid);
  }

  lemma CompleteLocal(g: Gateway, g': Gateway, route: string, c: int, rid: string, text: string)
    requires g' == g.(store := Set(g.store, CounterKey(route), ToString(Wrap32(c - 1))))
    requires |text| >= 1 && |g.localCache| < g.promoted
    ensures CachedLocally(g, route, rid, text, Complete(g', rid, text, true))
  {
    assert Complete(g', rid, text, true).next.store == Del(g'.store, {rid});
    SetThenDel(g.store, CounterKey(route), ToString(Wrap32(c - 1)), rid);
  }

  lemma CompleteShared(g: Gateway, g': Gateway, route: string, c: int, rid: string, text: string)
    requires g' == g.(store := Set(g.store, CounterKey(route), ToString(Wrap32(c - 1))))
    requires |text| >= 1 && |g.localCache| >= g.promoted
    ensures CachedShared(g, route, rid, text, Complete(g', rid, text, true))
  {
    assert Complete(g', rid, text, true).next.store
      == Set(Del(g'.store, {rid}), CacheKey(rid), CachedForm(text));
    SetThenDelThenSet(g.store, CounterKey(route), ToString(Wrap32(c - 1)), rid, CacheKey(rid), CachedForm(text));
  }

  /** Finalisation does what `Finalized` describes for every answer. */
  lemma FinalizeSpec(g: Gateway, route: string, answer: Answer)
    ensures Finalized(g, route, answer, Finalize(g, route, answer))
  {
    if answer.Reply? && CounterOf(g.store, route).Some? {
      var c := CounterOf(g.store, route).value;
      var g' := g.(store := Set(g.store, CounterKey(route), ToString(Wrap32(c - 1))));
      CounterRoundTrip(g.store, route, Wrap32(c - 1));
      if answer.id.Some? {
        var rid, text := answer.id.value, answer.text;
        if !Contains(text, "response") {
          CompleteRelays(g, g', route, c, rid, text, false);
          CompleteUncached(g, g', route, c, rid, text);
        } else {
          ContainsIsLongEnough(text, "response");
          CompleteRelays(g, g', route, c, rid, text, true);
          if |g.localCache| < g.promoted {
            CompleteLocal(g, g', route, c, rid, text);
          } else {
            CompleteShared(g, g', route, c, rid, text);
          }
        }
      }
    }
  }

  /** A GET `/?id=<n>`: a cached reply if either tier has one, else the owning
      worker's reply, finalising the process. */
  function HandleGet(g: Gateway, uri: string, net: Network): (s: Step)
    ensures |s.calls| <= 1
    ensures s.next.functions == g.functions && s.next.aggregate == g.aggregate
    ensures s.calls == [] ==> s.next == g
    ensures RequestedId(uri).None? ==> s.response == Aborted && s.calls == []
    ensures RequestedId(uri).Some? ==>
      var id := ToString(RequestedId(uri).value);
      var cached := Find(g, CacheKey(id));
      && (cached.Found? ==> s.response == Sent(cached.text) && s.calls == [])
      && (cached.WrongType? ==> s.response == Aborted && s.calls == [])
      && (cached.Missing? && Get(g.store, id).Missing? ==>
            s.response == Error(NoGetRouteMessage) && s.calls == [])
      && (cached.Missing? && Get(g.store, id).WrongType? ==> s.response == Aborted && s.calls == [])
      && (cached.Missing? && Get(g.store, id).Found? ==>
            var route := Get(g.store, id).text;
            && s.calls == [GetFrom(route + "?id=" + id)]
            && Finalized(g, route, net(0), s.(calls := [])))
  {
    match RequestedId(uri)
    case None => Step(g, Aborted, [])
    case Some(n) =>
      var id := ToString(n);
      match Find(g, CacheKey(id))
      case Found(v) => Step(g, Sent(v), [])
      case WrongType => Step(g, Aborted, [])
      case Missing =>
        match Get(g.store, id)
        case Missing => Step(g, Error(NoGetRouteMessage), [])
        case WrongType => Step(g, Aborted, [])
        case Found(route) =>
          FinalizeSpec(g, route, net(0));
          Finalize(g, route, net(0)).(calls := [GetFrom(route + "?id=" + id)])
  }
}

=== FILE: decimal.dfy ===
/** Java's decimal conversions between `int`/`long` and strings
    (`Integer.parseInt`, `Long.parseLong`, `String.valueOf`), and Java's
    two's-complement wrap-around of `++`/`--` on 32- and 64-bit integers. */
module Decimal {
  import opened Wrappers

  const Int32Min: int := -0x8000_0000
  const Int32Max: int := 0x7fff_ffff
  const Int64Min: int := -0x8000_0000_0000_0000
  const Int64Max: int := 0x7fff_ffff_ffff_ffff

  /** The value a Java `int` holds after an arithmetic result `x` is stored in it. */
  function Wrap32(x: int): (r: int)
    ensures Int32Min <= r <= Int32Max
    ensures Int32Min <= x <= Int32Max ==> r == x
    ensures x == Int32Max + 1 ==> r == Int32Min
    ensures x == Int32Min - 1 ==> r == Int32Max
  {
    Int32Min + (x - Int32Min) % 0x1_0000_0000
  }

  /** The value a Java `long` holds after an arithmetic result `x` is stored in it. */
  function Wrap64(x: int): (r: int)
    ensures Int64Min <= r <= Int64Max
    ensures Int64Min <= x <= Int64Max ==> r == x
    ensures x == Int64Max + 1 ==> r == Int64Min
  {
    Int64Min + (x - Int64Min) % 0x1_0000_0000_0000_0000
  }

  predicate IsDigit(c: char) {
    '0' <= c <= '9'
  }

  predicate AllDigits(s: string) {
    forall i :: 0 <= i < |s| ==> IsDigit(s[i])
  }

  function DigitChar(d: nat): (c: char)
    requires d < 10
    ensures IsDigit(c)
  {
    ('0' as int + d) as char
  }

  function DigitValue(c: char): (d: nat)
    requires IsDigit(c)
    ensures d < 10 && DigitChar(d) == c
  {
    c as int - '0' as int
  }

  /** The decimal digits of `n`, most significant first, without leading zeros. */
  function Digits(n: nat): (s: string)
    ensures |s| >= 1 && AllDigits(s)
    ensures |s| > 1 ==> s[0] != '0'
    decreases n
  {
    if n < 10 then [DigitChar(n)] else Digits(n / 10) + [DigitChar(n % 10)]
  }

  /** The number a string of decimal digits denotes; leading zeros are allowed. */
  function ValueOf(s: string): nat
    requires AllDigits(s)
  {
    if |s| == 0 then 0 else ValueOf(s[..|s| - 1]) * 10 + DigitValue(s[|s| - 1])
  }

  /** Java's rendering of an integer (`String.valueOf(int)`, `Long.toString`,
      and `"" + n` in string concatenation). */
  function ToString(n: int): (s: string)
    ensures |s| >= 1
    ensures forall i :: 0 <= i < |s| ==> IsDigit(s[i]) || s[i] == '-'
    ensures IsDigit(s[|s| - 1])
  {
    if n < 0 then "-" + Digits(-n) else Digits(n)
  }

  /** Java's `parseInt`/`parseLong` on ASCII text: an optional `+` or `-`, then
      at least one digit, denoting a value in [lo, hi]; anything else throws
      `NumberFormatException`, modelled as `None`. */
  function Parse(s: string, lo: int, hi: int): (r: Option<int>)
    ensures r.Some? ==> lo <= r.value <= hi
    ensures r.Some? ==> |s| >= 1
  {
    if |s| == 0 then None
    else
      var body := if s[0] == '-' || s[0] == '+' then s[1..] else s;
      if |body| == 0 || !AllDigits(body) then None
      else
        var v: int := if s[0] == '-' then 0 - ValueOf(body) as int else ValueOf(body) as int;
        if lo <= v <= hi then Some(v) else None
  }

  /** `Integer.parseInt`. */
  function ParseInt(s: string): (r: Option<int>)
    ensures r.Some? ==> Int32Min <= r.value <= Int32Max
  {
    Parse(s, Int32Min, Int32Max)
  }

  /** `Long.parseLong`. */
  function ParseLong(s: string): (r: Option<int>)
    ensures r.Some? ==> Int64Min <= r.value <= Int64Max
  {
    Parse(s, Int64Min, Int64Max)
  }

  lemma {:induction false} ValueOfDigits(n: nat)
    ensures ValueOf(Digits(n)) == n
    decreases n
  {
    if n >= 10 {
      var s := Digits(n);
      assert s[..|s| - 1] == Digits(n / 10);
      ValueOfDigits(n / 10);
    }
  }

  /** Parsing what Java printed gives back the number: the round trip every
      counter and id takes through the store. */
  lemma ParseToString(n: int, lo: int, hi: int)
    requires lo <= n <= hi
    ensures Parse(ToString(n), lo, hi) == Some(n)
  {
    if n < 0 {
      assert ToString(n)[1..] == Digits(-n);
      ValueOfDigits(-n);
    } else {
      ValueOfDigits(n);
    }
  }

  lemma ParseIntToString(n: int)
    requires Int32Min <= n <= Int32Max
    ensures ParseInt(ToString(n)) == Some(n)
  {
    ParseToString(n, Int32Min, Int32Max);
  }

  lemma ParseLongToString(n: int)
    requires Int64Min <= n <= Int64Max
    ensures ParseLong(ToString(n)) == Some(n)
  {
    ParseToString(n, Int64Min, Int64Max);
  }

  /** Distinct numbers print differently. */
  lemma ToStringInjective(m: int, n: int)
    requires ToString(m) == ToString(n)
    ensures m == n
  {
    var lo := if m < n then m else n;
    var hi := if m < n then n else m;
    ParseToString(m, lo, hi);
    ParseToString(n, lo, hi);
  }
}

=== FILE: dispatcher.dfy ===
/** Dispatch of an ordinary POST to a worker of the requested function, and
    the deregistration side effects of a refused connection. */
module Dispatcher {
  import opened Wrappers
  import opened Decimal
  import opened Redis
  import opened Balancer
  import opened GatewayState

  /** The counters of `routes` in list order; `None` as soon as one cannot be
      read (the loop throws on the first such worker). */
  function ReadCounters(st: Store, routes: seq<string>): (r: Option<seq<int>>)
    ensures r.Some? <==> forall i :: 0 <= i < |routes| ==> CounterOf(st, routes[i]).Some?
    ensures r.Some? ==> |r.value| == |routes|
    ensures r.Some? ==> forall i :: 0 <= i < |routes| ==> CounterOf(st, routes[i]) == Some(r.value[i])
    decreases |routes|
  {
    if |routes| == 0 then Some([])
    else match CounterOf(st, routes[0])
      case None => None
      case Some(c) =>
        match ReadCounters(st, routes[1..])
        case None => None
        case Some(cs) => Some([c] + cs)
  }

  /** The keys a refused connection may touch: the function's list, and,
      when the request names an address, that address's counter and "0". */
  function DeregisteredKeys(f: string, address: Option<string>): set<string> {
    if address.Some? then {f, CounterKey(address.value), "0"} else {f}
  }

  /** The effect of forwarding a dispatch to `target`, chosen for function `f`
      with `first` the first worker's counter, given the worker's `answer`. */
  ghost predicate Forwarded(g: Gateway, f: string, address: Option<string>, target: string,
                            first: int, payload: string, answer: Answer, s: Step)
  {
    && s.calls == [PostTo(target, payload)]
    && s.next.functions == g.functions && s.next.localCache == g.localCache
    && s.next.promoted == g.promoted && s.next.aggregate == g.aggregate
    && (answer.Refused? ==>
          && ListOf(s.next.store, f) ==
               (if address.Some? && f in {CounterKey(address.value), "0"} then []
                else RemoveFirst(ListOf(g.store, f), target))
          && OnlyListChanged(g.store, s.next.store, f)
          && OnlyWritten(g.store, s.next.store, DeregisteredKeys(f, address))
          && !HoldsText(s.next.store, f)
          && (address.None? ==> s.response == Aborted)
          && (address.Some? ==>
                && s.response == Error(NoPostReplyMessage)
                && CounterKey(address.value) !in s.next.store
                && "0" !in s.next.store))
    && (answer.Failed? ==> s.next == g && s.response == Aborted)
    && (answer.Empty? ==> s.next == g && s.response == Error(NoPostReplyMessage))
    && (answer.Reply? ==>
          && (answer.id != Some(CounterKey(target)) ==>
                CounterOf(s.next.store, target) == Some(Wrap32(first + 1)))
          && (answer.id.None? ==>
                && s.response == Aborted
                && OnlyWritten(g.store, s.next.store, {CounterKey(target)}))
          && (answer.id.Some? ==>
                && s.response == Sent(answer.text)
                && Get(s.next.store, answer.id.value) == Found(target)
                && OnlyWritten(g.store, s.next.store, {CounterKey(target), answer.id.value})))
  }

  /** A refused connection: one occurrence of `target` leaves the list of
      `f`, then the counter of the request's `address` and the key "0" are
      deleted (reading a missing `address` throws between the two). */
  function Deregister(g: Gateway, f: string, address: Option<string>, target: string, payload: string): (s: Step)
    requires !HoldsText(g.store, f)
    ensures s.calls == [PostTo(target, payload)]
    ensures s.next == g.(store := s.next.store)
    ensures ListOf(s.next.store, f) ==
      (if address.Some? && f in {CounterKey(address.value), "0"} then [] else RemoveFirst(ListOf(g.store, f), target))
    ensures OnlyListChanged(g.store, s.next.store, f)
    ensures OnlyWritten(g.store, s.next.store, DeregisteredKeys(f, address))
    ensures !HoldsText(s.next.store, f)
    ensures address.None? ==> s.response == Aborted
    ensures address.Some? ==>
      && s.response == Error(NoPostReplyMessage)
      && CounterKey(address.value) !in s.next.store
      && "0" !in s.next.store
  {
    var st := LRem1(g.store, f, target).value;
    assert OnlyWritten(g.store, st, {f}) by {
      assert st - {f} == g.store - {f};
    }
    if address.None? then Step(g.(store := st), Aborted, [PostTo(target, payload)])
    else
      var gone := {CounterKey(address.value), "0"};
      var st' := Del(st, gone);
      assert OnlyWritten(st, st', gone) by {
        assert st' - gone == st - gone;
      }
      OnlyWrittenTrans(g.store, st, st', {f}, gone);
      assert {f} + gone == DeregisteredKeys(f, address);
      Step(g.(store := st'), Error(NoPostReplyMessage), [PostTo(target, payload)])
  }

  /** A reply: the target's counter becomes the first worker's counter plus
      one, then the reply's id (reading a missing one throws) is correlated
      with the target and the reply relayed. */
  function Record(g: Gateway, target: string, first: int, payload: string, text: string, id: Option<string>): (s: Step)
    ensures s.calls == [PostTo(target, payload)]
    ensures s.next == g.(store := s.next.store)
    ensures id != Some(CounterKey(target)) ==> CounterOf(s.next.store, target) == Some(Wrap32(first + 1))
    ensures id.None? ==>
      s.response == Aborted && OnlyWritten(g.store, s.next.store, {CounterKey(target)})
    ensures id.Some? ==>
      && s.response == Sent(text)
      && Get(s.next.store, id.value) == Found(target)
      && OnlyWritten(g.store, s.next.store, {CounterKey(target), id.value})
  {
    var n := Wrap32(first + 1);
    var st := Set(g.store, CounterKey(target), ToString(n));
    CounterRoundTrip(g.store, target, n);
    assert OnlyWritten(g.store, st, {CounterKey(target)}) by {
      assert st - {CounterKey(target)} == g.store - {CounterKey(target)};
    }
    if id.None? then Step(g.(store := st), Aborted, [PostTo(target, payload)])
    else
      var st' := Set(st, id.value, target);
      assert OnlyWritten(st, st', {id.value}) by {
        assert st' - {id.value} == st - {id.value};
      }
      OnlyWrittenTrans(g.store, st, st', {CounterKey(target)}, {id.value});
      assert {CounterKey(target)} + {id.value} == {CounterKey(target), id.value};
      Step(g.(store := st'), Sent(text), [PostTo(target, payload)])
  }

  /** Lines that follow the selection: the call to the chosen worker and what
      its outcome does to the keyspace. */
  function Forward(g: Gateway, f: string, address: Option<string>, target: string,
                   first: int, payload: string, answer: Answer): (s: Step)
    requires !HoldsText(g.store, f)
    ensures Forwarded(g, f, address, target, first, payload, answer, s)
  {
    match answer
    case Refused => Deregister(g, f, address, target, payload)
    case Failed => Step(g, Aborted, [PostTo(target, payload)])
    case Empty => Step(g, Error(NoPostReplyMessage), [PostTo(target, payload)])
    case Reply(text, id) => Record(g, target, first, payload, text, id)
  }

  /** A POST that is neither a registration nor a broadcast. */
  function Dispatch(g: Gateway, fields: Fields, payload: string, net: Network): (s: Step)
    ensures |s.calls| <= 1
    ensures s.calls == [] ==> s.next == g
    ensures s.next.functions == g.functions && s.next.localCache == g.localCache
    ensures s.next.promoted == g.promoted && s.next.aggregate == g.aggregate
    ensures fields.functionName.None? ==> s.response == Aborted
    ensures fields.functionName.Some? && ListOf(g.store, fields.functionName.value) == [] ==>
      && s.calls == []
      && s.response == (if HoldsText(g.store, fields.functionName.value) then Aborted else Error(NoServiceMessage))
    ensures s.calls == [] && fields.functionName.Some? && ListOf(g.store, fields.functionName.value) != [] ==>
      s.response == Aborted && ReadCounters(g.store, ListOf(g.store, fields.functionName.value)).None?
    ensures s.calls != [] ==>
      && fields.functionName.Some?
      && var f := fields.functionName.value;
      && var routes := ListOf(g.store, f);
      && ReadCounters(g.store, routes).Some?
      && var counters := ReadCounters(g.store, routes).value;
      && (exists k: nat :: ChosenAsWritten(counters, k) && s.calls[0] == PostTo(routes[k], payload))
      && Forwarded(g, f, fields.address, s.calls[0].target, counters[0], payload, net(0), s)
  {
    if fields.functionName.None? then Step(g, Aborted, [])
    else
      var f := fields.functionName.value;
      match LLen(g.store, f)
      case None => Step(g, Aborted, [])
      case Some(n) =>
        if n == 0 then Step(g, Error(NoServiceMessage), [])
        else
          var routes := ListOf(g.store, f);
          match ReadCounters(g.store, routes)
          case None => Step(g, Aborted, [])
          case Some(counters) =>
            var k := Choose(counters);
            ChooseSpec(counters, k);
            Forward(g, f, fields.address, routes[k], counters[0], payload, net(0))
  }
}

=== FILE: gateway.dfy ===
/** The gateway's request handler: routes each request by verb and, for a
    POST, by its `Service-Call` header, to registration, broadcast or
    dispatch. Each request is one atomic step. */
module GatewayHandler {
  import opened Wrappers
  import opened Decimal
  import opened JavaText
  import opened Redis
  import opened Addressing
  import opened GatewayState
  import opened ResultCache
  import opened Registry
  import opened Dispatcher
  import opened Correlation
  import opened Broadcaster

  /** An inbound request. A POST carries its `Service-Call` and `ServicePort`
      headers (absent or present) and its body, both as text and as the JSON
      fields read from it (`None` when the body is not a JSON object, where
      reading it throws). */
  datatype Request =
    | GetRequest(uri: string)
    | PostRequest(serviceCall: Option<string>, servicePort: Option<string>, body: Option<Fields>, payload: string)
    | PutRequest(body: Option<Fields>, payload: string)
    | OtherRequest

  const BroadcastHeader := "broadcast:"

  /** A POST. With a `Service-Call` header the requester's port is read from
      `ServicePort` first (a missing or non-numeric one throws); then "true"
      registers, a `broadcast:` prefix broadcasts the rest of the header,
      and any other value falls through to an ordinary dispatch. */
  function HandlePost(g: Gateway, serviceCall: Option<string>, servicePort: Option<string>,
                      body: Option<Fields>, payload: string, net: Network): (s: Step)
    ensures body.None? ==> s == Step(g, Aborted, [])
    ensures body.Some? && serviceCall.Some? && (servicePort.None? || ParseInt(servicePort.value).None?) ==>
      s == Step(g, Aborted, [])
    ensures body.Some? && serviceCall.None? ==> s == Dispatch(g, body.value, payload, net)
    ensures body.Some? && serviceCall.Some? && servicePort.Some? && ParseInt(servicePort.value).Some? ==>
      var sc, port := serviceCall.value, ParseInt(servicePort.value).value;
      && (sc == "true" ==> s == Register(g, body.value))
      && (sc != "true" && StartsWith(sc, BroadcastHeader) ==>
            s == Broadcast(g, sc[|BroadcastHeader|..], port, payload, net))
      && (sc != "true" && !StartsWith(sc, BroadcastHeader) ==> s == Dispatch(g, body.value, payload, net))
    ensures s.response.Registered? ==> serviceCall == Some("true")
    ensures s.next.aggregate != g.aggregate ==>
      serviceCall.Some? && StartsWith(serviceCall.value, BroadcastHeader)
    ensures s.next.localCache == g.localCache && s.next.promoted == g.promoted
    ensures g.functions <= s.next.functions
    ensures NoDuplicates(g.functions) ==> NoDuplicates(s.next.functions)
  {
    if body.None? then Step(g, Aborted, [])
    else if serviceCall.None? then Dispatch(g, body.value, payload, net)
    else
      var port := if servicePort.None? then None else ParseInt(servicePort.value);
      if port.None? then Step(g, Aborted, [])
      else if serviceCall.value == "true" then Register(g, body.value)
      else if StartsWith(serviceCall.value, BroadcastHeader) then
        Broadcast(g, serviceCall.value[|BroadcastHeader|..], port.value, payload, net)
      else Dispatch(g, body.value, payload, net)
  }

  /** One request. GET needs no body; any verb but GET, POST and PUT is read
      and left unanswered. */
  function Handle(g: Gateway, req: Request, net: Network): (s: Step)
    ensures req.GetRequest? ==> s == HandleGet(g, req.uri, net)
    ensures req.PostRequest? ==> s == HandlePost(g, req.serviceCall, req.servicePort, req.body, req.payload, net)
    ensures req.PutRequest? ==>
      s == (if req.body.None? then Step(g, Aborted, []) else HandlePut(g, req.body.value, req.payload, net))
    ensures req.OtherRequest? ==> s == Step(g, Silent, [])
    ensures req.PutRequest? ==> s.next == g
    ensures !req.GetRequest? ==> s.next.localCache == g.localCache && s.next.promoted == g.promoted
    ensures !req.PostRequest? ==> s.next.functions == g.functions && s.next.aggregate == g.aggregate
    ensures g.functions <= s.next.functions
  {
    match req
    case GetRequest(uri) => HandleGet(g, uri, net)
    case PostRequest(sc, sp, body, payload) => HandlePost(g, sc, sp, body, payload, net)
    case PutRequest(body, payload) =>
      if body.None? then Step(g, Aborted, []) else HandlePut(g, body.value, payload, net)
    case OtherRequest => Step(g, Silent, [])
  }

  /** `all` reaches every function ever registered, in the order of first
      registration: a registration adds its name at the end when it is new,
      keeps every earlier name in place, and never repeats one. */
  lemma RegistrationExtendsNames(g: Gateway, fields: Fields)
    requires Valid(g)
    ensures var s := Register(g, fields);
      && (s.response.Registered? ==>
            && fields.functionName.value in Names(s.next, "all")
            && NoDuplicates(Names(s.next, "all"))
            && Names(g, "all") <= Names(s.next, "all"))
      && (s.response.Aborted? ==> Names(s.next, "all") == Names(g, "all"))
  {
  }

  /** A refused connection leaves the function's key a list or absent, so a
      later registration for that function never meets WRONGTYPE: even after
      its last worker was removed, a worker can register again. */
  lemma RegisterAfterDeregister(g: Gateway, f: string, address: Option<string>, target: string,
                                payload: string, fields: Fields)
    requires !HoldsText(g.store, f)
    requires fields.functionName == Some(f) && fields.address.Some?
    ensures Register(Deregister(g, f, address, target, payload).next, fields).response.Registered?
  {
  }

  /** Only a registration changes the names a broadcast to `all` reaches. */
  lemma OnlyRegistrationAddsNames(g: Gateway, req: Request, net: Network)
    ensures var s := Handle(g, req, net);
      !s.response.Registered? ==> Names(s.next, "all") == Names(g, "all")
  {
  }

  /** Every request keeps the gateway's invariant: no function name is known
      twice, and the local cache tier never holds more entries than were
      promoted to Redis (while that `int` counter has not reached its top). */
  lemma HandleKeepsValid(g: Gateway, req: Request, net: Network)
    requires Valid(g) && g.promoted < Int32Max
    ensures Valid(Handle(g, req, net).next)
  {
    var s := Handle(g, req, net);
    if req.GetRequest? && s.calls != [] {
      var id := ToString(RequestedId(req.uri).value);
      var route := Get(g.store, id).text;
      var answer := net(0);
      if answer.Reply? && CounterOf(g.store, route).Some? && answer.id.Some? {
        var rid, text := answer.id.value, answer.text;
        var hasResult := Contains(text, "response");
        assert Cached(g, route, rid, text, hasResult, s.(calls := []));
        if hasResult {
          ContainsIsLongEnough(text, "response");
          if |g.localCache| < g.promoted {
            assert CachedLocally(g, route, rid, text, s.(calls := []));
          } else {
            assert CachedShared(g, route, rid, text, s.(calls := []));
          }
        } else {
          assert CachedNothing(g, route, rid, s.(calls := []));
        }
      }
    }
  }
}

=== FILE: gateway_state.dfy ===
/** The state the gateway handler works on, the outcomes of its outbound calls,
    and the record of what one request did. Each inbound request is one atomic
    step from a `Gateway` to a `Step`. */
module GatewayState {
  import opened Wrappers
  import opened Decimal
  import opened Redis

  datatype Gateway = Gateway(
    store: Store,                    // the shared Redis keyspace
    functions: seq<string>,          // function names seen at registration, in order
    localCache: map<string, string>, // in-process tier of the result cache
    promoted: int,                   // entries written to the Redis tier (a Java static int)
    aggregate: seq<string>)          // broadcast replies collected and not yet joined

  /** What an outbound HTTP call came back with: a refused connection
      (`HttpHostConnectException`), any other exception, a `null` body, or a
      body together with Jackson's `asText` of its "id" field (`None` when the
      body is not a JSON object or has no "id", where reading it throws). */
  datatype Answer = Refused | Failed | Empty | Reply(text: string, id: Option<string>)

  /** The answers to a request's outbound calls, the k-th call getting `net(k)`. */
  type Network = nat -> Answer

  datatype Call =
    | PostTo(target: string, payload: string)
    | PutTo(target: string, payload: string)
    | GetFrom(target: string)

  /** What the client gets back: a body passed through verbatim, a body
      `{"error": message}`, the registration acknowledgement
      `{"status": "successful connection to gateway", "address": address}`,
      nothing because the handler returned without answering, or nothing
      because an exception ended the handler. */
  datatype Response =
    | Sent(body: string)
    | Error(message: string)
    | Registered(address: string)
    | Silent
    | Aborted

  datatype Step = Step(next: Gateway, response: Response, calls: seq<Call>)

  /** A JSON request body's fields as Jackson's `asText` reads them; `None` for
      an absent field, whose `get` returns null so that `asText` throws. */
  datatype Fields = Fields(functionName: Option<string>, address: Option<string>, id: Option<string>)

  const NoServiceMessage := "invalid POST request: not found service with such function name"
  const NoPostReplyMessage := "invalid POST service response: no response to POST from service"
  const NoPutRouteMessage := "invalid PUT request: no service has process with this ID"
  const NoPutReplyMessage := "invalid PUT service response: no response to PUT from service"
  const NoGetRouteMessage := "invalid GET request: no service has process with this ID"
  const NoGetReplyMessage := "invalid GET response: there is no response to GET request"

  /** The key of a worker's load counter ("mailbox size"). */
  function CounterKey(address: string): string {
    address + "_mailboxSize"
  }

  /** The key of a cached GET reply in either tier. */
  function CacheKey(id: string): string {
    "cached:" + id
  }

  /** `Integer.parseInt(get(<address>_mailboxSize))`; `None` when the key is
      absent (parseInt of null), holds a list (WRONGTYPE) or holds no int. */
  function CounterOf(st: Store, address: string): (r: Option<int>)
    ensures r.Some? ==> HoldsText(st, CounterKey(address))
  {
    match Get(st, CounterKey(address))
    case Found(t) => ParseInt(t)
    case _ => None
  }

  /** A counter written with `String.valueOf` reads back as the same number. */
  lemma CounterRoundTrip(st: Store, address: string, n: int)
    requires Int32Min <= n <= Int32Max
    ensures CounterOf(Set(st, CounterKey(address), ToString(n)), address) == Some(n)
  {
    ParseIntToString(n);
  }

  /** The three kinds of key that follow a process id never collide: a load
      counter ends in a letter, an id and its cache key in a digit. */
  lemma KeysDiffer(address: string, n: int)
    ensures CounterKey(address) != ToString(n)
    ensures CounterKey(address) != CacheKey(ToString(n))
    ensures CacheKey(ToString(n)) != ToString(n)
  {
    var c, d := CounterKey(address), ToString(n);
    assert c[|c| - 1] == 'e';
    assert CacheKey(d)[|CacheKey(d)| - 1] == d[|d| - 1];
  }

  predicate NoDuplicates(xs: seq<string>) {
    forall i, j :: 0 <= i < j < |xs| ==> xs[i] != xs[j]
  }

  /** What every step keeps: no function name is listed twice, and the local
      cache tier never outgrows the promotion counter. */
  predicate Valid(g: Gateway) {
    && NoDuplicates(g.functions)
    && |g.localCache| <= g.promoted
  }

  /** A gateway as constructed: empty lists and caches, counter at 0, over a
      given keyspace. */
  function Initial(st: Store): (g: Gateway)
    ensures Valid(g)
    ensures g.store == st && g.functions == [] && g.aggregate == []
    ensures g.localCache == map[] && g.promoted == 0
  {
    Gateway(st, [], map[], 0, [])
  }
}

=== FILE: javatext.dfy ===
/** The few `java.lang.String` operations the handlers rely on: `split` with a
    one-character literal pattern, `contains`, `startsWith`, and array indexing
    of a split result (which throws when out of bounds). */
module JavaText {
  import opened Wrappers

  /** All the pieces of `s` between occurrences of `c`, empty ones included
      (what `split` computes before it drops trailing empty strings). */
  function Pieces(s: string, c: char): (r: seq<string>)
    ensures |r| >= 1
    decreases |s|
  {
    if |s| == 0 then [""]
    else
      var rest := Pieces(s[1..], c);
      if s[0] == c then [""] + rest else [[s[0]] + rest[0]] + rest[1..]
  }

  function StripTrailingEmpty(xs: seq<string>): (r: seq<string>)
    ensures |r| <= |xs| && r == xs[..|r|]
    ensures |r| > 0 ==> r[|r| - 1] != ""
    ensures forall i :: |r| <= i < |xs| ==> xs[i] == ""
    decreases |xs|
  {
    if |xs| > 0 && xs[|xs| - 1] == "" then StripTrailingEmpty(xs[..|xs| - 1]) else xs
  }

  /** `s.split(c)` for a pattern matching exactly the character `c`: the whole
      string when `c` does not occur, otherwise the pieces without the trailing
      empty ones. */
  function Split(s: string, c: char): seq<string> {
    if c !in s then [s] else StripTrailingEmpty(Pieces(s, c))
  }

  /** `xs[i]` on a Java array; `None` stands for ArrayIndexOutOfBoundsException. */
  function Element(xs: seq<string>, i: nat): (r: Option<string>)
    ensures r.Some? <==> i < |xs|
  {
    if i < |xs| then Some(xs[i]) else None
  }

  predicate StartsWith(s: string, prefix: string) {
    |prefix| <= |s| && s[..|prefix|] == prefix
  }

  /** `s.contains(t)`. */
  predicate Contains(s: string, t: string)
    decreases |s|
  {
    StartsWith(s, t) || (|s| > 0 && Contains(s[1..], t))
  }

  lemma {:induction false} ContainsIsLongEnough(s: string, t: string)
    requires Contains(s, t)
    ensures |s| >= |t|
    decreases |s|
  {
    if !StartsWith(s, t) {
      ContainsIsLongEnough(s[1..], t);
    }
  }

  /** A text without `c` is a single piece. */
  lemma {:induction false} PiecesOfPlain(a: string, c: char)
    requires c !in a
    ensures Pieces(a, c) == [a]
    decreases |a|
  {
    if |a| > 0 {
      assert c !in a[1..];
      PiecesOfPlain(a[1..], c);
      assert [a[0]] + a[1..] == a;
    }
  }

  /** The first occurrence of `c` ends the first piece. */
  lemma {:induction false} PiecesOfJoin(a: string, c: char, b: string)
    requires c !in a
    ensures Pieces(a + [c] + b, c) == [a] + Pieces(b, c)
    decreases |a|
  {
    if |a| > 0 {
      assert (a + [c] + b)[1..] == a[1..] + [c] + b;
      assert (a + [c] + b)[0] == a[0] && c !in a[1..];
      PiecesOfJoin(a[1..], c, b);
      assert [a[0]] + a[1..] == a;
    } else {
      assert a + [c] + b == [c] + b;
      assert ([c] + b)[1..] == b;
    }
  }

  /** Text without `c` in front of `b` extends the first piece of `b`. */
  lemma {:induction false} PiecesOfPrefix(a: string, c: char, b: string)
    requires c !in a
    ensures Pieces(a + b, c) == [a + Pieces(b, c)[0]] + Pieces(b, c)[1..]
    decreases |a|
  {
    if |a| > 0 {
      assert (a + b)[1..] == a[1..] + b;
      assert (a + b)[0] == a[0] && c !in a[1..];
      PiecesOfPrefix(a[1..], c, b);
      assert a + Pieces(b, c)[0] == [a[0]] + (a[1..] + Pieces(b, c)[0]);
    } else {
      assert a + b == b;
      assert a + Pieces(b, c)[0] == Pieces(b, c)[0];
      assert [Pieces(b, c)[0]] + Pieces(b, c)[1..] == Pieces(b, c);
    }
  }

  /** The first position of `c` in `s`. */
  function IndexOf(s: string, c: char): (i: nat)
    requires c in s
    ensures i < |s| && s[i] == c && c !in s[..i]
    decreases |s|
  {
    if s[0] == c then 0
    else
      var j := IndexOf(s[1..], c);
      assert s[..j + 1] == [s[0]] + s[1..][..j];
      j + 1
  }

  /** Every character of a piece comes from the string it was cut from. */
  lemma {:induction false} PiecesWithin(s: string, c: char)
    ensures forall k, x :: 0 <= k < |Pieces(s, c)| && x in Pieces(s, c)[k] ==> x in s
    decreases |s|
  {
    if |s| > 0 {
      var rest := Pieces(s[1..], c);
      PiecesWithin(s[1..], c);
      var r := Pieces(s, c);
      forall k, x | 0 <= k < |r| && x in r[k] ensures x in s {
        if s[0] == c {
          if k > 0 {
            assert r[k] == rest[k - 1];
            assert x in s[1..];
          }
        } else if k == 0 {
          if x != s[0] {
            assert x in rest[0];
            assert x in s[1..];
          }
        } else {
          assert r[k] == rest[k];
          assert x in s[1..];
        }
      }
    }
  }

  /** The second element of `s.split(c)`, when there is one, lies after the
      first occurrence of `c`. */
  lemma SecondPieceFollows(s: string, c: char, x: char)
    requires |Split(s, c)| >= 2 && x in Split(s, c)[1]
    ensures c in s && x in s[IndexOf(s, c) + 1..]
  {
    assert c in s;
    var i := IndexOf(s, c);
    var a, b := s[..i], s[i + 1..];
    assert s == a + [c] + b;
    PiecesOfJoin(a, c, b);
    PiecesWithin(b, c);
    assert Split(s, c)[1] == Pieces(s, c)[1] == Pieces(b, c)[0];
  }

  /** A non-empty piece survives `split` at its own index. */
  lemma SplitKeeps(s: string, c: char, i: nat)
    requires c in s
    requires i < |Pieces(s, c)| && Pieces(s, c)[i] != ""
    ensures i < |Split(s, c)| && Split(s, c)[i] == Pieces(s, c)[i]
  {
  }

  /** The first piece of a text that starts with `c`-free text `a` and whose
      remainder is empty or starts with `d` (where `d` differs from `c`) is `a`
      followed by nothing or by `d` and more. */
  lemma FirstPieceOfPrefix(a: string, c: char, tail: string)
    requires c !in a
    requires |tail| == 0 || tail[0] != c
    ensures Pieces(a + tail, c)[0] == a + Pieces(tail, c)[0]
    ensures |tail| == 0 ==> Pieces(tail, c)[0] == ""
    ensures |tail| > 0 ==> |Pieces(tail, c)[0]| > 0 && Pieces(tail, c)[0][0] == tail[0]
  {
    PiecesOfPrefix(a, c, tail);
  }
}

=== FILE: process.dfy ===
/** A worker's unit of work: a process with a numeric id, the name of the
    function it computes, a status and its collected arguments. Ids come
    from a counter shared by all processes of the worker (a Java `static
    long`), passed in and returned explicitly here. */
module Unit {
  import opened Decimal

  datatype Process = Process(
    id: int,
    processName: string,
    status: string,
    processArguments: map<string, string>)

  const Created := "created"
  const Building := "building"
  const Processing := "processing"
  const Done := "done"

  /** A construction's result: the new process and the counter after it. */
  datatype Constructed = Constructed(process: Process, counter: int)

  /** `new Process(name)`: takes the counter's current value as its id and
      advances the counter by one, as a Java `long` (wrapping at the top). */
  function NewProcess(counter: int, name: string): (r: Constructed)
    requires Int64Min <= counter <= Int64Max
    ensures r.process.id == counter
    ensures r.process.processName == name && r.process.status == Created
    ensures r.process.processArguments == map[]
    ensures counter < Int64Max ==> r.counter == counter + 1 && r.counter > r.process.id
    ensures counter == Int64Max ==> r.counter == Int64Min
    ensures Int64Min <= r.counter <= Int64Max
  {
    Constructed(Process(counter, name, Created, map[]), Wrap64(counter + 1))
  }

  function GetId(p: Process): int {
    p.id
  }

  function SetId(p: Process, id: int): (r: Process)
    ensures GetId(r) == id
    ensures r.processName == p.processName && r.status == p.status
    ensures r.processArguments == p.processArguments
  {
    p.(id := id)
  }

  function GetStatus(p: Process): string {
    p.status
  }

  function SetStatus(p: Process, status: string): (r: Process)
    ensures GetStatus(r) == status
    ensures r.id == p.id && r.processName == p.processName
    ensures r.processArguments == p.processArguments
  {
    p.(status := status)
  }

  function GetProcessName(p: Process): string {
    p.processName
  }

  function SetProcessName(p: Process, name: string): (r: Process)
    ensures GetProcessName(r) == name
    ensures r.id == p.id && r.status == p.status
    ensures r.processArguments == p.processArguments
  {
    p.(processName := name)
  }

  function GetProcessArguments(p: Process): map<string, string> {
    p.processArguments
  }

  function SetProcessArguments(p: Process, arguments: map<string, string>): (r: Process)
    ensures GetProcessArguments(r) == arguments
    ensures r.id == p.id && r.status == p.status && r.processName == p.processName
  {
    p.(processArguments := arguments)
  }

  /** `getProcessArguments().put(key, value)`: the map is shared with the
      process, so the put is a change of the process. */
  function PutArgument(p: Process, key: string, value: string): (r: Process)
    ensures GetProcessArguments(r) == GetProcessArguments(p)[key := value]
    ensures r.id == p.id && r.status == p.status && r.processName == p.processName
  {
    SetProcessArguments(p, p.processArguments[key := value])
  }

  /** Setting a field and setting it back restores the process, and setting
      it twice keeps only the last value. */
  lemma SettersUndo(p: Process, id: int, status: string, name: string)
    ensures SetId(SetId(p, id), GetId(p)) == p
    ensures SetStatus(SetStatus(p, status), GetStatus(p)) == p
    ensures SetProcessName(SetProcessName(p, name), GetProcessName(p)) == p
    ensures SetProcessArguments(SetProcessArguments(p, map[]), GetProcessArguments(p)) == p
    ensures SetStatus(SetStatus(p, status), Done) == SetStatus(p, Done)
  {
  }

  /** The processes of `names` constructed one after another, from `counter`. */
  function ConstructAll(counter: int, names: seq<string>): (ps: seq<Process>)
    requires Int64Min <= counter <= Int64Max
    ensures |ps| == |names|
    decreases |names|
  {
    if names == [] then []
    else
      var c := NewProcess(counter, names[0]);
      [c.process] + ConstructAll(c.counter, names[1..])
  }

  /** While the counter does not pass the top of `long`, successive
      constructions get the consecutive ids `counter`, `counter + 1`, ...,
      so ids are distinct and strictly increasing. */
  lemma {:induction false} ConstructedIdsIncrease(counter: int, names: seq<string>)
    requires Int64Min <= counter && counter + |names| <= Int64Max
    ensures forall i :: 0 <= i < |names| ==> ConstructAll(counter, names)[i].id == counter + i
    ensures forall i, j :: 0 <= i < j < |names| ==>
      ConstructAll(counter, names)[i].id < ConstructAll(counter, names)[j].id
    decreases |names|
  {
    if names != [] {
      var c := NewProcess(counter, names[0]);
      ConstructedIdsIncrease(c.counter, names[1..]);
      var ps := ConstructAll(counter, names);
      var rest := ConstructAll(c.counter, names[1..]);
      assert ps == [c.process] + rest;
      assert c.counter == counter + 1;
      forall i | 0 <= i < |ps| ensures ps[i].id == counter + i {
        if i > 0 {
          assert ps[i] == rest[i - 1];
          assert rest[i - 1].id == c.counter + (i - 1);
        }
      }
    }
  }
}

=== FILE: redis.dfy ===
/** The Redis keyspace the gateway talks to through its connection: one map
    from keys to values, where a value is either a string or a list. As in
    Redis, a string command on a list key (or a list command on a string key)
    fails with WRONGTYPE, a list that becomes empty disappears, and `DEL`,
    `SET` and `EXISTS` work on keys of either kind. */
module Redis {
  import opened Wrappers

  datatype Value = Str(text: string) | List(items: seq<string>)

  type Store = map<string, Value>

  /** The outcome of `GET`: nil, a string, or a WRONGTYPE error. */
  datatype Lookup = Missing | Found(text: string) | WrongType

  function Get(st: Store, k: string): (r: Lookup)
    ensures r.Missing? <==> k !in st
    ensures r.Found? <==> HoldsText(st, k)
    ensures r.Found? ==> st[k] == Str(r.text)
  {
    if k !in st then Missing
    else match st[k]
      case Str(t) => Found(t)
      case List(_) => WrongType
  }

  function Set(st: Store, k: string, v: string): (r: Store)
    ensures Get(r, k) == Found(v)
    ensures forall j :: j != k ==> (j in r <==> j in st)
    ensures forall j :: j in st && j != k ==> r[j] == st[j]
  {
    st[k := Str(v)]
  }

  /** `DEL k1 k2 ...`: absent keys are ignored. */
  function Del(st: Store, keys: set<string>): (r: Store)
    ensures forall j :: j in keys ==> j !in r
    ensures forall j :: j !in keys ==> (j in r <==> j in st)
    ensures forall j :: j in r ==> r[j] == st[j]
  {
    st - keys
  }

  predicate HoldsText(st: Store, k: string) {
    k in st && st[k].Str?
  }

  /** The list stored at `k`; a missing key reads as the empty list. */
  function ListOf(st: Store, k: string): seq<string> {
    if k in st && st[k].List? then st[k].items else []
  }

  /** `LLEN k`. */
  function LLen(st: Store, k: string): (r: Option<nat>)
    ensures r.None? <==> HoldsText(st, k)
    ensures r.Some? ==> r.value == |ListOf(st, k)|
  {
    if HoldsText(st, k) then None else Some(|ListOf(st, k)|)
  }

  /** `LRANGE k 0 (LLEN k - 1)`, i.e. the whole list, head first. */
  function LRange(st: Store, k: string): (r: Option<seq<string>>)
    ensures r.None? <==> HoldsText(st, k)
    ensures r.Some? ==> r.value == ListOf(st, k)
  {
    if HoldsText(st, k) then None else Some(ListOf(st, k))
  }

  /** `LPUSH k v`: the new element becomes the head. */
  function LPush(st: Store, k: string, v: string): (r: Option<Store>)
    ensures r.None? <==> HoldsText(st, k)
    ensures r.Some? ==> ListOf(r.value, k) == [v] + ListOf(st, k)
    ensures r.Some? ==> forall j :: j != k ==> (j in r.value <==> j in st)
    ensures r.Some? ==> forall j :: j in st && j != k ==> r.value[j] == st[j]
  {
    if HoldsText(st, k) then None else Some(st[k := List([v] + ListOf(st, k))])
  }

  /** Index of the first occurrence of `x`. */
  function IndexOf(xs: seq<string>, x: string): (i: nat)
    requires x in xs
    ensures i < |xs| && xs[i] == x
    ensures forall j :: 0 <= j < i ==> xs[j] != x
  {
    if xs[0] == x then 0 else 1 + IndexOf(xs[1..], x)
  }

  /** `xs` without its first occurrence of `x`: exactly one copy of `x` goes,
      everything else keeps its order. */
  function RemoveFirst(xs: seq<string>, x: string): (r: seq<string>)
    ensures x !in xs ==> r == xs
    ensures x in xs ==> |r| == |xs| - 1 && multiset(r) + multiset{x} == multiset(xs)
    ensures x in xs ==> forall j :: 0 <= j < IndexOf(xs, x) ==> r[j] == xs[j]
    ensures x in xs ==> forall j :: IndexOf(xs, x) <= j < |r| ==> r[j] == xs[j + 1]
  {
    if x in xs then
      var i := IndexOf(xs, x);
      assert xs == xs[..i] + [xs[i]] + xs[i + 1..];
      xs[..i] + xs[i + 1..]
    else xs
  }

  /** `LREM k 1 v`: removes the first occurrence of `v`, head to tail; a list
      left empty is deleted. */
  function LRem1(st: Store, k: string, v: string): (r: Option<Store>)
    ensures r.None? <==> HoldsText(st, k)
    ensures r.Some? ==> ListOf(r.value, k) == RemoveFirst(ListOf(st, k), v)
    ensures r.Some? ==> forall j :: j != k ==> (j in r.value <==> j in st)
    ensures r.Some? ==> forall j :: j in st && j != k ==> r.value[j] == st[j]
    ensures r.Some? && k in r.value ==> r.value[k].List?
    ensures r.Some? ==> (k in r.value <==> RemoveFirst(ListOf(st, k), v) != [])
  {
    if HoldsText(st, k) then None
    else
      var rest := RemoveFirst(ListOf(st, k), v);
      if |rest| == 0 then Some(st - {k}) else Some(st[k := List(rest)])
  }

  /** Nothing in the keyspace is added or rewritten, except that the list at
      `f` may change. */
  ghost predicate OnlyListChanged(before: Store, after: Store, f: string) {
    forall k :: k in after ==> k in before && (k != f ==> after[k] == before[k])
  }

  /** Only the keys in `written` may be added, rewritten or deleted. */
  ghost predicate OnlyWritten(before: Store, after: Store, written: set<string>) {
    after - written == before - written
  }

  /** `SET k v` then `DEL d` touches `k` and `d` only. */
  lemma SetThenDel(st: Store, k: string, v: string, d: string)
    ensures OnlyWritten(st, Del(Set(st, k, v), {d}), {k, d})
  {
    var r := Del(Set(st, k, v), {d});
    assert r - {k, d} == st - {k, d};
  }

  /** ... and a further `SET k2 v2` touches `k2` as well. */
  lemma SetThenDelThenSet(st: Store, k: string, v: string, d: string, k2: string, v2: string)
    ensures OnlyWritten(st, Set(Del(Set(st, k, v), {d}), k2, v2), {k, d, k2})
  {
    var r := Set(Del(Set(st, k, v), {d}), k2, v2);
    assert r - {k, d, k2} == st - {k, d, k2};
  }

  /** A key outside `written` reads the same before and after. */
  lemma OnlyWrittenGet(before: Store, after: Store, written: set<string>, k: string)
    requires OnlyWritten(before, after, written) && k !in written
    ensures Get(after, k) == Get(before, k)
  {
    assert (k in after) == (k in after - written);
    assert (k in before) == (k in before - written);
    if k in after {
      assert after[k] == (after - written)[k];
      assert before[k] == (before - written)[k];
    }
  }

  lemma OnlyWrittenTrans(a: Store, b: Store, c: Store, s: set<string>, t: set<string>)
    requires OnlyWritten(a, b, s) && OnlyWritten(b, c, t)
    ensures OnlyWritten(a, c, s + t)
  {
    assert (a - s) - t == a - (s + t);
    assert (b - s) - t == b - (s + t) == (b - t) - s;
    assert (c - t) - s == c - (s + t);
  }
}

=== FILE: registry.dfy ===
/** Worker registration: a POST with header `Service-Call: true`. */
module Registry {
  import opened Wrappers
  import opened Decimal
  import opened Redis
  import opened GatewayState

  /** Registers `address` for `functionName`. A worker is new when its counter
      key does not exist: then its address is pushed at the head of the
      function's list and its counter set to "0". The function name joins the
      known names if it is not there yet. */
  function Register(g: Gateway, fields: Fields): (s: Step)
    ensures s.calls == []
    ensures s.next.localCache == g.localCache && s.next.promoted == g.promoted
    ensures s.next.aggregate == g.aggregate
    ensures s.response.Aborted? ==> s.next == g
    ensures fields.functionName.None? || fields.address.None? ==> s.response.Aborted?
    ensures s.response.Aborted? || s.response == Registered(fields.address.value)
    ensures fields.functionName.Some? && fields.address.Some? ==>
      (s.response.Aborted? <==>
         CounterKey(fields.address.value) !in g.store && HoldsText(g.store, fields.functionName.value))
    ensures s.response.Registered? ==>
      var f, a := fields.functionName.value, fields.address.value;
      && s.next.functions == (if f in g.functions then g.functions else g.functions + [f])
      && (CounterKey(a) in g.store ==> s.next.store == g.store)
      && (CounterKey(a) !in g.store ==>
            && CounterOf(s.next.store, a) == Some(0)
            && (f != CounterKey(a) ==> ListOf(s.next.store, f) == [a] + ListOf(g.store, f))
            && (forall k :: k != f && k != CounterKey(a) ==> (k in s.next.store <==> k in g.store))
            && (forall k :: k in g.store && k != f && k != CounterKey(a) ==> s.next.store[k] == g.store[k]))
    ensures NoDuplicates(g.functions) ==> NoDuplicates(s.next.functions)
  {
    if fields.functionName.None? || fields.address.None? then Step(g, Aborted, [])
    else
      var f, a := fields.functionName.value, fields.address.value;
      var pushed := if CounterKey(a) in g.store then Some(g.store)
                    else match LPush(g.store, f, a)
                      case None => None
                      case Some(st) => Some(Set(st, CounterKey(a), "0"));
      if pushed.None? then Step(g, Aborted, [])
      else
        assert CounterKey(a) !in g.store ==> CounterOf(pushed.value, a) == Some(0) by {
          CounterRoundTrip(g.store, a, 0);
        }
        var names := if f in g.functions then g.functions else g.functions + [f];
        Step(g.(store := pushed.value, functions := names), Registered(a), [])
  }

  /** Registering the same worker twice has the effect of registering it once:
      the second request finds the counter key and changes nothing. */
  lemma RegisterIdempotent(g: Gateway, fields: Fields)
    ensures Register(Register(g, fields).next, fields) == Register(g, fields).(calls := [])
  {
  }

  /** A new worker's address gains exactly one more occurrence in its
      function's list. */
  lemma RegisterAddsOneOccurrence(g: Gateway, fields: Fields)
    requires fields.functionName.Some? && fields.address.Some?
    requires CounterKey(fields.address.value) !in g.store
    requires fields.functionName.value != CounterKey(fields.address.value)
    requires Register(g, fields).response.Registered?
    ensures var f, a := fields.functionName.value, fields.address.value;
      multiset(ListOf(Register(g, fields).next.store, f))[a] == multiset(ListOf(g.store, f))[a] + 1
  {
  }
}

=== FILE: result_cache.dfy ===
/** The two-tier cache of finished GET replies: a Redis tier shared through
    the keyspace and a local in-process map. */
module ResultCache {
  import opened Wrappers
  import opened Decimal
  import opened Redis
  import opened GatewayState

  const CachedPrefix := "{\"cached\":true,"

  /** The form a reply is cached in: `{"cached":true,` followed by the reply
      without its first character (its opening brace). */
  function CachedForm(reply: string): (r: string)
    requires |reply| >= 1
    ensures |r| == |CachedPrefix| + |reply| - 1
    ensures r[..|CachedPrefix|] == CachedPrefix && r[|CachedPrefix|..] == reply[1..]
  {
    CachedPrefix + reply[1..]
  }

  /** Lookup as the GET handler does it: the Redis tier first, the local tier
      only when Redis has nothing under `key`. */
  function Find(g: Gateway, key: string): Lookup {
    match Get(g.store, key)
    case Missing => if key in g.localCache then Found(g.localCache[key]) else Missing
    case other => other
  }

  /** Stores an entry: into the local tier while it holds fewer entries than
      have been promoted to Redis, otherwise into Redis, counting the
      promotion. The promotion counter is a Java `int`. */
  function Insert(g: Gateway, key: string, value: string): (r: Gateway)
    ensures r.functions == g.functions && r.aggregate == g.aggregate
    ensures |g.localCache| < g.promoted ==>
      && r.localCache == g.localCache[key := value]
      && r.store == g.store && r.promoted == g.promoted
    ensures |g.localCache| >= g.promoted ==>
      && r.localCache == g.localCache
      && Get(r.store, key) == Found(value)
      && OnlyWritten(g.store, r.store, {key})
      && r.promoted == Wrap32(g.promoted + 1)
    ensures |g.localCache| <= g.promoted < Int32Max ==> |r.localCache| <= r.promoted
  {
    if |g.localCache| < g.promoted then g.(localCache := g.localCache[key := value])
    else g.(store := Set(g.store, key, value), promoted := Wrap32(g.promoted + 1))
  }

  /** Once an entry is stored, a lookup of its key finds it, unless the Redis
      tier already held another string under that key while the entry went to
      the local tier. */
  lemma InsertThenFind(g: Gateway, key: string, value: string)
    requires !(|g.localCache| < g.promoted && Get(g.store, key) != Missing)
    ensures Find(Insert(g, key, value), key) == Found(value)
  {
  }

  /** The Redis tier wins: an entry that went to the local tier stays
      hidden behind whatever Redis already holds under its key. */
  lemma RedisShadowsLocal(g: Gateway, key: string, value: string)
    requires |g.localCache| < g.promoted && Get(g.store, key) != Missing
    ensures Insert(g, key, value).localCache[key] == value
    ensures Find(Insert(g, key, value), key) == Get(g.store, key)
  {
  }

  /** The local tier fills first only after the Redis tier has taken entries:
      from a fresh gateway (counter 0) the first entry goes to Redis. */
  lemma FirstEntryGoesToRedis(st: Store, key: string, value: string)
    ensures var g := Insert(Initial(st), key, value);
      g.localCache == map[] && g.promoted == 1 && Get(g.store, key) == Found(value)
  {
  }
}

=== FILE: worker.dfy ===
/** The example worker (a currency converter): processes are created by
    POST, filled in by PUT, and collected by GET, which retires them. */
module ConvertHandler {
  import opened Wrappers
  import opened Decimal
  import opened Addressing
  import opened Unit

  /** The worker's table of live processes, keyed by id, and the process id
      counter (static in the source; one worker per run here). */
  datatype Worker = Worker(storage: map<int, Process>, nextId: int)

  /** What the caller gets: the process serialised as JSON (its id, name and
      status; arguments are not serialised), a literal body, nothing because
      the handler returned without answering, or nothing because an
      exception ended it. */
  datatype WorkerResponse = ProcessJson(process: Process) | Text(body: string) | Silent | Aborted

  datatype WorkerStep = WorkerStep(next: Worker, response: WorkerResponse)

  /** A PUT body as the handler reads it: `id` through `asLong` (`None` when
      the field is absent, where reading it throws), each optional field
      present or not. */
  datatype PutBody = PutBody(
    id: Option<int>,
    firstCurrency: Option<string>,
    secondCurrency: Option<string>,
    source: Option<string>,
    finalize: bool)

  /** The argument names a PUT may set. */
  const PutFields: set<string> := {"firstCurrency", "secondCurrency", "source"}

  const UndoneReply := "{\"response\":undone}"
  const ResultReply := "{\"response\":12}"

  /** Every process is stored under its own id, every id is below the
      counter, and the counter is a `long`. */
  predicate Valid(w: Worker) {
    && Int64Min <= w.nextId <= Int64Max
    && forall k :: k in w.storage ==> w.storage[k].id == k && k < w.nextId
  }

  /** POST `{"functionName": f, "amount": a}`: constructs a process (reading
      `functionName` first, so its absence leaves the counter alone), adds
      the `amount` argument (whose absence aborts after the counter moved)
      and stores the process under its id. */
  function WorkerPost(w: Worker, functionName: Option<string>, amount: Option<string>): (s: WorkerStep)
    requires Int64Min <= w.nextId <= Int64Max
    ensures functionName.None? ==> s == WorkerStep(w, Aborted)
    ensures functionName.Some? && amount.None? ==>
      s.response == Aborted && s.next.storage == w.storage && s.next.nextId == Wrap64(w.nextId + 1)
    ensures functionName.Some? && amount.Some? ==>
      var p := Process(w.nextId, functionName.value, Created, map["amount" := amount.value]);
      && s.response == ProcessJson(p)
      && s.next.storage == w.storage[w.nextId := p]
      && s.next.nextId == Wrap64(w.nextId + 1)
  {
    if functionName.None? then WorkerStep(w, Aborted)
    else
      var c := NewProcess(w.nextId, functionName.value);
      var w' := w.(nextId := c.counter);
      if amount.None? then WorkerStep(w', Aborted)
      else
        var p := PutArgument(c.process, "amount", amount.value);
        WorkerStep(w'.(storage := w.storage[p.id := p]), ProcessJson(p))
  }

  /** The single step a PUT applies after marking the process `building`:
      the first present field of firstCurrency, secondCurrency, source,
      finalize, in that order. */
  function ApplyField(p: Process, body: PutBody): (r: Process)
    ensures r.id == p.id && r.processName == p.processName
    ensures body.firstCurrency.Some? ==>
      r.processArguments == p.processArguments["firstCurrency" := body.firstCurrency.value] && r.status == p.status
    ensures body.firstCurrency.None? && body.secondCurrency.Some? ==>
      r.processArguments == p.processArguments["secondCurrency" := body.secondCurrency.value] && r.status == p.status
    ensures body.firstCurrency.None? && body.secondCurrency.None? && body.source.Some? ==>
      r.processArguments == p.processArguments["source" := body.source.value] && r.status == p.status
    ensures body.firstCurrency.None? && body.secondCurrency.None? && body.source.None? ==>
      r.processArguments == p.processArguments
      && r.status == (if body.finalize then Processing else p.status)
  {
    if body.firstCurrency.Some? then PutArgument(p, "firstCurrency", body.firstCurrency.value)
    else if body.secondCurrency.Some? then PutArgument(p, "secondCurrency", body.secondCurrency.value)
    else if body.source.Some? then PutArgument(p, "source", body.source.value)
    else if body.finalize then SetStatus(p, Processing)
    else p
  }

  /** PUT: an unknown id is ignored without an answer; a known process is
      marked `building`, gets one field applied, and is answered. */
  function WorkerPut(w: Worker, body: PutBody): (s: WorkerStep)
    ensures body.id.None? ==> s == WorkerStep(w, Aborted)
    ensures body.id.Some? && body.id.value !in w.storage ==> s == WorkerStep(w, Silent)
    ensures body.id.Some? && body.id.value in w.storage ==>
      var id := body.id.value;
      && s.response.ProcessJson?
      && s.next.storage == w.storage[id := s.response.process]
      && s.next.nextId == w.nextId
      && s.response.process.id == w.storage[id].id
      && s.response.process.processName == w.storage[id].processName
      && (s.response.process.status == Processing <==>
            body.firstCurrency.None? && body.secondCurrency.None? && body.source.None? && body.finalize)
      && (s.response.process.status != Processing ==> s.response.process.status == Building)
    ensures body.id.Some? && body.id.value in w.storage ==>
      s.response == ProcessJson(ApplyField(SetStatus(w.storage[body.id.value], Building), body))
    ensures body.id.Some? && body.id.value in w.storage ==>
      var before, after := w.storage[body.id.value].processArguments, s.response.process.processArguments;
      && before.Keys <= after.Keys
      && |after.Keys - before.Keys| <= 1
      && (forall k :: k in after && k !in before ==> k in PutFields)
      && forall k :: k in before && k !in PutFields ==> after[k] == before[k]
  {
    if body.id.None? then WorkerStep(w, Aborted)
    else if body.id.value !in w.storage then WorkerStep(w, Silent)
    else
      var id := body.id.value;
      var p := ApplyField(SetStatus(w.storage[id], Building), body);
      WorkerStep(w.(storage := w.storage[id := p]), ProcessJson(p))
  }

  /** GET `...?id=<n>`: an unknown process is ignored without an answer; a
      process not yet `processing` is answered "undone"; a `processing`
      process is answered with its result and removed. */
  function WorkerGet(w: Worker, uri: string): (s: WorkerStep)
    ensures RequestedId(uri).None? ==> s == WorkerStep(w, Aborted)
    ensures RequestedId(uri).Some? && RequestedId(uri).value !in w.storage ==> s == WorkerStep(w, Silent)
    ensures RequestedId(uri).Some? && RequestedId(uri).value in w.storage ==>
      var id := RequestedId(uri).value;
      && (w.storage[id].status != Processing ==> s == WorkerStep(w, Text(UndoneReply)))
      && (w.storage[id].status == Processing ==>
            && s.response == Text(ResultReply)
            && id !in s.next.storage
            && s.next.nextId == w.nextId)
    ensures s.next.storage.Keys <= w.storage.Keys
    ensures forall k :: k in s.next.storage ==> s.next.storage[k] == w.storage[k]
  {
    match RequestedId(uri)
    case None => WorkerStep(w, Aborted)
    case Some(id) =>
      if id !in w.storage then WorkerStep(w, Silent)
      else if w.storage[id].status != Processing then WorkerStep(w, Text(UndoneReply))
      else
        // the status becomes "done" on the object that is then removed
        WorkerStep(w.(storage := w.storage - {id}), Text(ResultReply))
  }

  /** Every operation keeps the table consistent; POST needs the counter
      below the top of `long` (the counter would wrap to a used id). */
  lemma WorkerStepsKeepValid(w: Worker, functionName: Option<string>, amount: Option<string>,
                             body: PutBody, uri: string)
    requires Valid(w)
    ensures w.nextId < Int64Max ==> Valid(WorkerPost(w, functionName, amount).next)
    ensures Valid(WorkerPut(w, body).next)
    ensures Valid(WorkerGet(w, uri).next)
  {
  }

  /** A POST stores the new process under an id no live process has, so
      every other process is untouched. */
  lemma PostIdIsFresh(w: Worker, functionName: string, amount: string)
    requires Valid(w)
    ensures var s := WorkerPost(w, Some(functionName), Some(amount));
      && w.nextId !in w.storage
      && s.next.storage.Keys == w.storage.Keys + {w.nextId}
      && forall k :: k in w.storage ==> s.next.storage[k] == w.storage[k]
  {
  }

  /** PUT and GET change no entry but the requested one. */
  lemma OnlyRequestedEntryChanges(w: Worker, body: PutBody, uri: string)
    ensures var s := WorkerPut(w, body);
      forall k :: k in w.storage && Some(k) != body.id ==> k in s.next.storage && s.next.storage[k] == w.storage[k]
    ensures var s := WorkerGet(w, uri);
      forall k :: k in w.storage && Some(k) != RequestedId(uri) ==> k in s.next.storage && s.next.storage[k] == w.storage[k]
  {
  }

  /** The conversation the example worker expects: a finalising PUT, then a
      GET that collects the result, then a GET that finds nothing. */
  lemma FinalizeThenCollect(w: Worker, id: int, uri: string)
    requires id in w.storage && RequestedId(uri) == Some(id)
    ensures var s1 := WorkerPut(w, PutBody(Some(id), None, None, None, true));
      var s2 := WorkerGet(s1.next, uri);
      var s3 := WorkerGet(s2.next, uri);
      && s1.response.ProcessJson? && s1.response.process.status == Processing
      && s2.response == Text(ResultReply)
      && s3 == WorkerStep(s2.next, Silent)
  {
  }

  /** Any PUT that sets no `finalize` (or sets it alongside another field)
      leaves the process `building`, so a GET answers "undone" and keeps it. */
  lemma UnfinalizedStaysUndone(w: Worker, body: PutBody, uri: string)
    requires body.id.Some? && body.id.value in w.storage && RequestedId(uri) == body.id
    requires !body.finalize || body.firstCurrency.Some? || body.secondCurrency.Some? || body.source.Some?
    ensures var s1 := WorkerPut(w, body);
      WorkerGet(s1.next, uri) == WorkerStep(s1.next, Text(UndoneReply))
  {
  }
}

=== FILE: wrappers.dfy ===
/** Failure-compatible optional values, used for Java's `null` returns and for
    conversions that throw on bad input. */
module Wrappers {

  datatype Option<+T> = None | Some(value: T) {

    predicate IsFailure() {
      None?
    }

    function PropagateFailure<U>(): Option<U>
      requires None?
    {
      None
    }

    function Extract(): T
      requires Some?
    {
      value
    }
  }
}
